=== FILE: README.md ===
# Allfeat music genres: the taxonomy compiler, in Dafny

This project models the taxonomy compiler of the Allfeat music-genres repository and proves
properties about it. The compiler turns a two-level taxonomy into two things. Each genre owns
an ordered list of subgenres.

- The on-chain `GenreId` enum. There is one member per node, in a fixed traversal order. A
  node's position in that order is its ordinal in the binary codec.
- An entry table, plus the queries that read it, in Rust (`GenreApi`) and in TypeScript
  (the module written by `generate.ts`).

The model is functional. The parsed taxonomy is a `seq<Genre>`, and each generator is a pure
function over it. The emitted enum is a sequence of lines, and each emitted table is a sequence
of records.

Modules, in dependency order:

- `Wrappers`: `Option`.
- `Seqs`: order-preserving `Filter`, specified against the index list `Positions`. Also `Map`
  and `Concat`, and lemmas relating them.
- `Normalise`:
  - `to_camel_case` and `toPascalCase`, each modelled as the source computes it.
    `to_camel_case` splits on each separator, drops the empty pieces, capitalises and joins.
    `toPascalCase` splits on runs of separators and capitalises and joins without dropping
    anything, so the empty pieces at either end capitalise to the empty string.
  - Both are proved equal to one per-character reference, `CapitalizeWords`, in the `Rust`
    and `Ts` dialects.
- `Taxonomy`:
  - `Genre`, `SubGenre`, and the traversal `Walk` that every generator shares.
  - Nodes are addressed by `Slot`. `Ordinal` numbers them and `Locate` inverts it.
- `TextLines`: joining lines with line feeds, as `join("\n")` does, and cutting a text back
  into its physical lines, which is where a `//` comment ends.
- `EnumEmitter`: the `all_variants` lines of `main`, which are genre comments, variants and
  blank lines; the enum body text they join into; and `EnumAccepted`, what the member lines
  decide about whether the compiler accepts the enum.
- `RustStringLiteral`:
  - How a display name is written into the generated Rust source: the quote escaping.
  - How the compiler reads it back: `Decode`, for string-literal bodies with simple escapes.
- `IndexEmitter`:
  - The `GenreEntry` table of `generate_wasm_api`, and its lockstep with the enum.
  - The records as written, and the table the compiler reads back from them.
- `GenreApi`: the Rust queries, and the empty-table fallback without the `js` feature.
- `Hierarchy`: what those queries return on a table generated from a taxonomy.
- `TsGenerator`:
  - The `allGenresUnified` list, and the module written from it, where `parentId` is emitted
    only when truthy.
  - The four TypeScript queries, and their agreement with the Rust side.

Case mapping is ASCII only: `a`..`z` become `A`..`Z`, and every other character is unchanged.
JavaScript's `\s` is modelled as the ECMAScript white-space and line-terminator code points.

Neither generator checks that normalised names are distinct. A duplicate is evidently
unintended, since the Rust compiler rejects an enum that declares a member twice. The model
has no such check either. It proves instead that such a collision writes the same member twice
into the member lines of the enum (`EnumEmitter.CollisionReachesEnum`).

The enum is modelled as lines, one per entry of `all_variants`. While genre names and member
names hold no line feed, those lines are exactly the physical lines of the emitted enum body
(`EnumEmitter.LineModelIsText`). A genre name holding a line feed ends its `//` comment early,
and the rest of the name becomes enum-body text (`EnumEmitter.MultiLineNameLeavesComment`).

## Model

| member | source | states |
|---|---|---|
| Normalise.ToCamelCase | rust/build.rs:167-180 | Splitting on `_`, `-` and space, dropping empty pieces, capitalising and joining equals the per-character reference: separators vanish, the first character of every word is upper-cased, the rest is kept. The result has no separator, and its length is the input length minus the number of separators |
| Normalise.SplitRust | rust/build.rs:168-170 | `split` gives exactly one more piece than there are separators. No piece holds a separator, and the pieces concatenate to the input with its separators removed |
| Normalise.JoinSkipsEmpty | rust/build.rs:171 | Dropping the empty pieces does not change the joined result |
| Normalise.SplitRustJoin | rust/build.rs:170-179 | Capitalising and joining the pieces of `split` equals the per-character reference, both at a word start and inside a word |
| Normalise.CapitalizeWordsKeepsLetters | rust/build.rs:170-179 | The non-separator characters survive, in order. Each is either unchanged or its ASCII upper case |
| Normalise.SeparatorsOnly | rust/build.rs:171-177 | An id made only of separators normalises to the empty name |
| Normalise.SeparatorPadding | rust/build.rs:170-171 | A leading separator, a trailing separator or a doubled separator changes nothing |
| Normalise.FirstIsUpper | rust/build.rs:175 | The first character of a non-empty result is a fixed point of ASCII upper-casing |
| Normalise.CamelCaseIdempotent | rust/build.rs:167-180 | Normalising a normalised name gives it back |
| Normalise.CamelCaseNotInjective | rust/build.rs:167-180 | Two words joined by two different separators are different ids with the same normalised name |
| Normalise.HardRock | rust/build.rs:167-180 | `hard_rock`, `hard-rock` and `hard rock` all normalise to `HardRock` |
| Normalise.ToPascalCase | js/scripts/generate.ts:10-15 | Splitting on runs of `[_\-\s]`, capitalising and joining equals the per-character reference in the TypeScript dialect. The result has no separator, and its length is the input length minus the number of separators |
| Normalise.SplitTs | js/scripts/generate.ts:12 | The pieces hold no separator, and every interior piece is non-empty. The pieces concatenate to the input with its separators removed |
| Normalise.SplitTsJoin | js/scripts/generate.ts:11-14 | Capitalising and joining the pieces of the regex split equals the per-character reference |
| Normalise.PascalAgreesWithCamel | js/scripts/generate.ts:10-15 | For ids whose only white space is the ASCII space, `toPascalCase` and `to_camel_case` agree |
| TsGenerator.TabSplitsOnlyInTs | js/scripts/generate.ts:12 | A tab separates words in TypeScript but not in Rust, so the two results differ in length |
| Taxonomy.Size | rust/build.rs:47-60 | The node count is at least the number of genres, and covers each genre together with its subgenres |
| Taxonomy.Walk | rust/build.rs:47-60 | The shared traversal yields one record per node |
| Taxonomy.Ordinal | rust/build.rs:47-60 | Every node's ordinal is below the node count |
| Taxonomy.Locate | rust/build.rs:47-60 | Every ordinal below the node count belongs to a node, and that node's ordinal is the given one |
| Taxonomy.LocateOrdinal | rust/build.rs:47-60 | Locating a node's ordinal gives the node back, so ordinals are unique |
| Taxonomy.WalkAt | rust/build.rs:47-60 | The traversal places each node's record at that node's ordinal |
| EnumEmitter.VariantsAreWalk | rust/build.rs:47-60 | Dropping comment and blank lines from `all_variants` leaves exactly the normalised ids in traversal order |
| EnumEmitter.EnumOrdinals | rust/build.rs:45-60 | The enum has one member per node, and the member at each node's ordinal is that node's normalised id |
| EnumEmitter.VariantsAreNormalisedIds | rust/build.rs:47-60 | The n-th enum member is the normalised n-th flattened id |
| EnumEmitter.CollisionReachesEnum | rust/build.rs:47-60 | Two nodes whose ids normalise alike become two enum members with one name, at two different ordinals, so the member lines are not acceptable |
| EnumEmitter.GenreBlock | rust/build.rs:48-59 | A genre's block has one line per node of the genre plus two. It opens with the comment carrying the genre's name, ends with a blank line, and holds no other comment |
| EnumEmitter.BlockVariants | rust/build.rs:51-56 | A genre's block declares the genre's member and then its subgenres' members, in declared order |
| EnumEmitter.VariantLines | rust/build.rs:45-60 | `all_variants` has one line per node plus two per genre. Every genre's name is carried by a comment line, and every comment line carries some genre's name |
| EnumEmitter.EnumAcceptedIff | rust/build.rs:45-60 | The member lines declare non-empty, pairwise distinct names exactly when the normalised flattened ids are non-empty and pairwise distinct |
| EnumEmitter.CommentsOneLine | rust/build.rs:47-48 | Every genre comment of `all_variants` is free of line feeds exactly when every genre name is |
| EnumEmitter.LineModelIsText | rust/build.rs:45-99 | For a non-empty taxonomy whose genre names and member names hold no line feed, cutting the joined enum body at its line feeds gives back exactly the texts of the `all_variants` entries, in order |
| EnumEmitter.MultiLineNameLeavesComment | rust/build.rs:47-48 | A genre comment whose name holds a line feed splits into at least two physical lines. The first is the comment opening with the name up to the line feed, and the rest is the remainder of the name with the comment's closing, outside the comment |
| TextLines.FirstLine | rust/build.rs:47-48 | The first line is a prefix of the text that holds no line feed, and when it is shorter than the text a line feed follows it |
| TextLines.Lines | rust/build.rs:99 | Every physical line holds no line feed, and joining the lines with line feeds gives the text back |
| TextLines.LinesOfJoin | rust/build.rs:99 | Joining one-line texts with line feeds and cutting the result at its line feeds gives the texts back |
| RustStringLiteral.EscapeQuotes | rust/build.rs:126 | Every `"` in the output is preceded by `\`. The length grows by the number of quotes. The only new backslashes are the ones placed before quotes, so a backslash already in the name is not escaped |
| RustStringLiteral.EscapeQuotesRoundTrip | rust/build.rs:126 | A name without backslash or carriage return reads back unchanged |
| RustStringLiteral.EscapeQuotesMisreadsBackslash | rust/build.rs:141 | The name made of a backslash and `n` reads back as a single line feed |
| RustStringLiteral.EscapeLiteral | rust/build.rs:126 | The corrected escaping reads back as the name for every name. The length grows by one per escaped character |
| IndexEmitter.GenerateEntries | rust/build.rs:112-146 | One entry per node. Each entry's enum member is the normalised id. An entry has kind Genre exactly when it has no parent |
| IndexEmitter.EntryAtOrdinal | rust/build.rs:115-146 | At each node's ordinal: a genre has kind Genre and no parent, and a subgenre has kind Subgenre with its owning genre as parent |
| IndexEmitter.Lockstep | rust/build.rs:112-146 | The entry walk and the enum walk agree: the n-th entry names the n-th enum member, and its id is the n-th flattened id |
| IndexEmitter.EmitEntries | rust/build.rs:117-144 | One record per node. Each record carries its entry's id, kind, parent and enum member verbatim, and only the name goes through the escaping |
| IndexEmitter.Compile | rust/build.rs:117-144 | The table compiles exactly when every record does, and then its n-th entry is the n-th record read back |
| IndexEmitter.CompiledTable | rust/build.rs:117-144 | When no id or parent id holds a backslash, a double quote or a carriage return, with the corrected escaping the records compile back to exactly the entry table, whatever the names contain. This is about the records only: the enum they refer to is covered by `EnumEmitter.EnumAcceptedIff` |
| IndexEmitter.CompiledTableAsWritten | rust/build.rs:117-144 | When no id or parent id holds a backslash, a double quote or a carriage return, with the escaping as written the records compile back to the table when no name holds a backslash or a carriage return |
| IndexEmitter.AsWrittenMisreadsName | rust/build.rs:117-128 | When no id or parent id holds a backslash, a double quote or a carriage return, with the escaping as written a genre named by a backslash and `n` compiles to an entry with a different name |
| GenreApi.AllEntries | rust/src/wasm_api.rs:213-223 | With the `js` feature the queries read the generated table. Without it they read the empty table |
| GenreApi.GetGenres | rust/src/wasm_api.rs:126-135 | Exactly the entries of kind Genre at the positions where they occur, in table order |
| GenreApi.GetSubgenresOf | rust/src/wasm_api.rs:138-147 | Exactly the entries whose parent is the argument, in table order |
| GenreApi.UnknownParentIsEmpty | rust/src/wasm_api.rs:138-147 | A parent id that no entry points at gives the empty list, not an error |
| GenreApi.SubgenresAreNotGenres | rust/src/wasm_api.rs:138-147 | When genre entries have no parent, the subgenre list never contains a genre |
| GenreApi.GetGenreById | rust/src/wasm_api.rs:150-155 | `None` exactly when no entry has the id. Otherwise the result is the first entry carrying it |
| GenreApi.FindsFirst | rust/src/wasm_api.rs:150-161 | The first entry carrying an id is what the lookup and the name query return |
| GenreApi.LookupRoundTrip | rust/src/wasm_api.rs:150-155 | With pairwise distinct ids, looking an entry up by its id gives the entry back |
| GenreApi.GetGenreName | rust/src/wasm_api.rs:158-161 | Some exactly when some entry has the id. The value is the name of the first such entry |
| GenreApi.IsValidGenreId | rust/src/wasm_api.rs:164-169 | True exactly when some entry has the id |
| GenreApi.ValidIffFound | rust/src/wasm_api.rs:158-169 | Validity holds exactly when the lookup, and the name query, return Some |
| GenreApi.GetHierarchicalGenres | rust/src/wasm_api.rs:188-206 | One group per Genre entry, in table order. Each group carries that entry's id, name and enum member, and the subgenre list of its id |
| GenreApi.FeatureOffIsEmpty | rust/src/wasm_api.rs:219-223 | Without the `js` feature every list is empty, every lookup is `None`, and no id is valid |
| Hierarchy.SubgenresOfGenre | rust/src/wasm_api.rs:138-147 | On a generated table with distinct genre ids, the subgenres of a genre are exactly its declared subgenres, in order, each with that genre as parent |
| Hierarchy.NonGenreHasNoSubgenres | rust/src/wasm_api.rs:138-147 | An id that is no genre's id has no subgenres. This covers a subgenre's id and an unknown id |
| Hierarchy.GenresAreTopLevel | rust/src/wasm_api.rs:126-135 | On a generated table, `get_genres` lists exactly the top-level genres, in order |
| Hierarchy.SubgenresOfTable | rust/build.rs:130-145 | The Subgenre-kind entries of a generated table are the genres' subgenre blocks, concatenated in order |
| Hierarchy.HierarchyReproducesTaxonomy | rust/src/wasm_api.rs:188-206 | On a generated table, the groups reproduce the taxonomy. Together they hold every Subgenre entry exactly once, in table order |
| Hierarchy.LookupEveryNode | rust/src/wasm_api.rs:150-169 | With unique node ids, every node's id finds that node's entry and name, and is valid |
| TsGenerator.AllUnified | js/scripts/generate.ts:44-65 | One entry per node. The n-th entry's id is the n-th flattened id, its `toNativeType()` is that id in Pascal case, and it is of type `"genre"` exactly when it has no parent |
| TsGenerator.EmittedModule | js/scripts/generate.ts:91-107 | One record per node. Each record is the in-memory entry, possibly without its `parentId`, and no record of type `"genre"` has one |
| TsGenerator.UnifiedAtOrdinal | js/scripts/generate.ts:46-65 | The TypeScript walk visits nodes in the Rust order. A genre gets type `"genre"` and no parent, and a subgenre gets type `"subgenre"` with its owning genre as parent |
| TsGenerator.EmitEntry | js/scripts/generate.ts:94-104 | The written record keeps id, name and type. It has a `parentId` exactly when the in-memory parent is a non-empty string |
| TsGenerator.EmptyParentIdDropped | js/scripts/generate.ts:97-101 | A subgenre keeps its parent in the written module exactly when the genre's id is non-empty |
| TsGenerator.EmittedIsInMemory | js/scripts/generate.ts:91-107 | With non-empty genre ids, the written list equals the in-memory list |
| TsGenerator.TsGetGenreName | js/scripts/generate.ts:112-115 | Non-null exactly when some entry has the id. The value is the name of the first such entry |
| TsGenerator.TsIsValidGenreId | js/scripts/generate.ts:120-122 | True exactly when some entry has the id |
| TsGenerator.TsNameIffValid | js/scripts/generate.ts:112-122 | `getGenreName` is non-null exactly when `isValidGenreId` holds |
| TsGenerator.TsGetSubgenresOf | js/scripts/generate.ts:127-129 | Exactly the entries whose `parentId` is the argument, in order |
| TsGenerator.TsSubgenresAreNotGenres | js/scripts/generate.ts:127-129 | On the written module, `getSubgenresOf` never returns an entry of type `"genre"` |
| TsGenerator.TsGetGenres | js/scripts/generate.ts:134-136 | Exactly the entries of type `"genre"`, in order |
| TsGenerator.RowsAgree | js/scripts/generate.ts:46-65 | With non-empty genre ids, the written TypeScript list and the Rust table agree row by row: id, name, kind and parent, in order |
| TsGenerator.NativeTypesAgree | js/scripts/generate.ts:103 | `toNativeType()` names the same enum member as the Rust table, for ids whose only white space is the space |
| TsGenerator.QueriesAgree | js/scripts/generate.ts:112-136 | With non-empty genre ids, the four TypeScript queries on the written module return what the Rust queries return on the Rust table |

## Left out

- File and environment plumbing is not modelled, because it is I/O. This covers the `BUILD_GENRES` toggle, reading `genres.json` and `HEADER`, header splicing, writing the generated files, `cargo:` directives, and `readFileSync`/`writeFileSync`. The taxonomy is an already-parsed value.
- JSON deserialisation is not modelled: it is done by serde, a foreign library.
- The fixed text of the templates is not modelled: derive lists, `use` lines and indentation. The enum is modelled as a sequence of lines, and each table as a sequence of records.
- WASM glue is not modelled, because it is foreign calls. This covers the `wasm_bindgen` getters, `serde_wasm_bindgen::to_value` and its error mapping, and the panic hook. Each query returns the entries it would serialise.
- `get_all_genres` has no member of its own: it serialises the whole table, which is `GenreApi.AllEntries`.
- `format!("{:?}", genre_id)` is not modelled: it comes from an external derive whose output is not visible. `genre_id_to_string` is left out for this reason. `HierarchicalGenre` keeps the enum member itself where the source keeps its debug string.
- rust/src/generated.rs is not part of this model. It is generated data with codec derives and no logic.
- Non-ASCII case mapping is not modelled: `char::to_uppercase` and `toUpperCase` can expand one character into several. Only `a`..`z` is upper-cased.
- A collision check on normalised names is not modelled, because the source has none. Non-injectivity is proved, and so is its consequence: the member lines of the enum declare one member twice. For one-line genre names those lines are the enum text, and the Rust compiler rejects it.
- The TypeScript generator writes names and ids between quotes without escaping. The model treats the written module as records and does not model that text.
- RustStringLiteral.Decode: reads only the simple escapes `\n \r \t \\ \0 \' \"`. Any other escape, such as `\x`, `\u{..}` or a line continuation, is treated as unreadable, so this is weaker than the Rust lexer. The lexer also turns each CR LF pair into LF before reading; that step is not modelled, so a name holding CR LF is treated as unreadable, where the compiler would read it with LF. Only a lone CR is actually refused.
- IndexEmitter.CompiledTable: `Compile` reads the records only. It takes every `GenreId::<variant>` path as resolving and does not read the enum text, so it assumes the enum compiles. The conditions on the member names are stated separately by `EnumEmitter.EnumAcceptedIff` (non-empty and distinct), and `CompiledTable` does not require them. Neither checks that a member name is a valid Rust identifier, for example that it does not start with a digit. Ids and parent ids are written between quotes without escaping, so the records compile back only for ids holding no backslash, double quote or carriage return (`IndexEmitter.PlainIds`), which `CompiledTable` requires.
- EnumEmitter.EnumOrdinals: like `IndexEmitter.Lockstep`, it speaks of the line model, which is the enum text only for one-line genre and member names (`EnumEmitter.LineModelIsText`). After a line feed in a genre name, the rest of the name is enum-body text (`EnumEmitter.MultiLineNameLeavesComment`). That text may be ignored, rejected, declare extra members, or hide following members, for example by opening a block comment; either of the last two would shift the ordinals. So the ordinal statements hold of the compiled enum only for one-line names.
- EnumEmitter.EnumAcceptedIff: decides acceptance from the member lines only, so it holds of the compiled enum only for one-line genre names, for the same reason. What the compiler makes of a multi-line genre name is not modelled, and neither is whether a member name is a Rust identifier.
- TsGenerator.EmittedIsInMemory: like `TsGenerator.RowsAgree` and `TsGenerator.QueriesAgree`, it treats the written module as records. The generator writes ids, names and parent ids between double quotes without escaping. So these statements hold of the written file only when no id, name or parent id contains `"`, `\` or a line break. Otherwise the module fails to parse or reads back differently.
- Normalise.CapitalizeWordsKeepsLetters: states that each surviving character is itself or its upper case. Exactly which characters are upper-cased is stated by `ToCamelCase`'s equality with `CapitalizeWords`.

## Findings

| source | as written | input that shows it | evidently intended | confidence | as-written member | corrected member |
|---|---|---|---|---|---|---|
| rust/build.rs:126 | Display names are written into a Rust string literal with only `"` escaped, at line 126 for genres and line 141 for subgenres. A backslash in a name starts an escape sequence in the generated source | A genre named by the two characters backslash and `n` is compiled as a name of one line feed | Escape backslashes, quotes and carriage returns, so that every name reads back unchanged | medium, not executed | RustStringLiteral.EscapeQuotesMisreadsBackslash | RustStringLiteral.EscapeLiteral |

The entry table the queries are proved against (`IndexEmitter.GenerateEntries`) is the intended
one. `IndexEmitter.CompiledTable` proves that, with the corrected escaping, the records compile
back to it for every name, provided the ids hold no backslash, double quote or carriage return.
That statement covers the records; the member names of the enum they
refer to are covered by `EnumEmitter.EnumAcceptedIff`. `IndexEmitter.AsWrittenMisreadsName` shows the as-written escaping failing inside a
whole table.

=== FILE: enum_emitter.dfy ===
/** The `GenreId` enum body emitted by `main` in rust/build.rs: for each genre a
    `// ===== Genre: <name> =====` comment line, the genre's variant, its subgenres' variants
    and a blank line. Only the variant lines define enum members; their order is the ordinal. */
module EnumEmitter {
  import opened Seqs
  import opened TextLines
  import opened Taxonomy
  import opened Normalise

  /** One entry of `all_variants`. The comment line carries the genre's display name. */
  datatype Line = GenreComment(genreName: string) | Variant(name: string) | Blank

  /** The lines pushed for one genre: its comment first, a blank line last, and no other
      comment in between. */
  function GenreBlock(g: Genre): (b: seq<Line>)
    ensures |b| == |g.subgenres| + 3
    ensures b[0] == GenreComment(g.name) && b[|b| - 1] == Blank
    ensures forall i :: 0 < i < |b| ==> !b[i].GenreComment?
  {
    [GenreComment(g.name), Variant(ToCamelCase(g.id))]
    + seq(|g.subgenres|, j requires 0 <= j < |g.subgenres| => Variant(ToCamelCase(g.subgenres[j].id)))
    + [Blank]
  }

  /** `all_variants`, built genre by genre: two lines per genre besides its members, and the
      comment lines carry exactly the genres' display names. */
  function VariantLines(gs: seq<Genre>): (r: seq<Line>)
    ensures |r| == Size(gs) + 2 * |gs|
    ensures CommentsAreNames(r, gs)
  {
    if |gs| == 0 then []
    else
      var b, rest := GenreBlock(gs[0]), VariantLines(gs[1..]);
      CommentsCons(b, rest, gs);
      b + rest
  }

  /** Every genre's name is carried by some comment line, and every comment line carries some
      genre's name. */
  predicate CommentsAreNames(lines: seq<Line>, gs: seq<Genre>)
  {
    && (forall k :: 0 <= k < |gs| ==> GenreComment(gs[k].name) in lines)
    && (forall i :: 0 <= i < |lines| && lines[i].GenreComment? ==> exists k :: 0 <= k < |gs| && lines[i].genreName == gs[k].name)
  }

  /** A block opening with the first genre's comment, followed by lines whose comments are the
      remaining genres' names. */
  lemma CommentsCons(b: seq<Line>, rest: seq<Line>, gs: seq<Genre>)
    requires |gs| > 0 && |b| > 0 && b[0] == GenreComment(gs[0].name)
    requires forall i :: 0 < i < |b| ==> !b[i].GenreComment?
    requires CommentsAreNames(rest, gs[1..])
    ensures CommentsAreNames(b + rest, gs)
  {
    forall k | 1 <= k < |gs|
      ensures GenreComment(gs[k].name) in b + rest
    {
      assert gs[1..][k - 1] == gs[k];
      var i :| 0 <= i < |rest| && rest[i] == GenreComment(gs[k].name);
      assert (b + rest)[|b| + i] == rest[i];
    }
    assert (b + rest)[0] == GenreComment(gs[0].name);
    forall i | 0 <= i < |b + rest| && (b + rest)[i].GenreComment?
      ensures exists k :: 0 <= k < |gs| && (b + rest)[i].genreName == gs[k].name
    {
      if i < |b| {
        assert (b + rest)[i] == b[i];
        assert i == 0;
      } else {
        assert (b + rest)[i] == rest[i - |b|];
        var k :| 0 <= k < |gs[1..]| && rest[i - |b|].genreName == gs[1..][k].name;
        assert gs[1..][k] == gs[k + 1];
      }
    }
  }

  /** The enum members declared by a list of lines: comment and blank lines dropped. */
  function Variants(lines: seq<Line>): seq<string>
  {
    if |lines| == 0 then []
    else (if lines[0].Variant? then [lines[0].name] else []) + Variants(lines[1..])
  }

  lemma {:induction false} VariantsAppend(a: seq<Line>, b: seq<Line>)
    ensures Variants(a + b) == Variants(a) + Variants(b)
    decreases |a|
  {
    if |a| == 0 {
      assert a + b == b;
    } else {
      assert (a + b)[0] == a[0] && (a + b)[1..] == a[1..] + b;
      VariantsAppend(a[1..], b);
    }
  }

  /** Lines that are all variant lines declare exactly their names. */
  lemma {:induction false} VariantsOfVariantLines(lines: seq<Line>)
    requires forall i :: 0 <= i < |lines| ==> lines[i].Variant?
    ensures |Variants(lines)| == |lines|
    ensures forall i :: 0 <= i < |lines| ==> Variants(lines)[i] == lines[i].name
    decreases |lines|
  {
    if |lines| > 0 {
      VariantsOfVariantLines(lines[1..]);
    }
  }

  function GenreVariant(g: Genre): string
  {
    ToCamelCase(g.id)
  }

  function SubgenreVariant(g: Genre, s: SubGenre): string
  {
    ToCamelCase(s.id)
  }

  /** Dropping the comment and blank lines leaves the normalised ids in traversal order:
      the comments do not shift any position. */
  lemma {:induction false} VariantsAreWalk(gs: seq<Genre>)
    ensures Variants(VariantLines(gs)) == Walk(gs, GenreVariant, SubgenreVariant)
    decreases |gs|
  {
    if |gs| > 0 {
      VariantsAppend(GenreBlock(gs[0]), VariantLines(gs[1..]));
      BlockVariants(gs[0]);
      VariantsAreWalk(gs[1..]);
    }
  }

  /** One genre's block declares the genre's member and then its subgenres' members. */
  lemma BlockVariants(g: Genre)
    ensures Variants(GenreBlock(g)) == [GenreVariant(g)] + SubWalk(g, SubgenreVariant)
  {
    var subs := seq(|g.subgenres|, j requires 0 <= j < |g.subgenres| => Variant(ToCamelCase(g.subgenres[j].id)));
    var head := [GenreComment(g.name), Variant(ToCamelCase(g.id))];
    assert GenreBlock(g) == head + subs + [Blank];
    VariantsAppend(head + subs, [Blank]);
    VariantsAppend(head, subs);
    VariantsOfVariantLines(subs);
    assert Variants(subs) == SubWalk(g, SubgenreVariant);
    assert Variants(head) == [GenreVariant(g)] by {
      assert head[1..] == [Variant(ToCamelCase(g.id))];
      assert head[1..][1..] == [];
    }
    assert Variants([Blank]) == [] by {
      assert [Blank][1..] == [];
    }
  }

  /** The enum has one member per node, and the member at each node's ordinal is that node's
      normalised id. */
  lemma EnumOrdinals(gs: seq<Genre>)
    ensures |Variants(VariantLines(gs))| == Size(gs)
    ensures forall s :: ValidSlot(gs, s) ==>
              Variants(VariantLines(gs))[Ordinal(gs, s)] == ToCamelCase(Emitted(gs, s, IdOfGenre, IdOfSubgenre))
  {
    VariantsAreWalk(gs);
    forall s | ValidSlot(gs, s)
      ensures Variants(VariantLines(gs))[Ordinal(gs, s)] == ToCamelCase(Emitted(gs, s, IdOfGenre, IdOfSubgenre))
    {
      WalkAt(gs, s, GenreVariant, SubgenreVariant);
    }
  }

  /** The enum members are the flattened ids, normalised one by one. */
  lemma VariantsAreNormalisedIds(gs: seq<Genre>)
    ensures |Variants(VariantLines(gs))| == |FlatIds(gs)|
    ensures forall n :: 0 <= n < |FlatIds(gs)| ==> Variants(VariantLines(gs))[n] == ToCamelCase(FlatIds(gs)[n])
  {
    EnumOrdinals(gs);
    forall n | 0 <= n < |FlatIds(gs)|
      ensures Variants(VariantLines(gs))[n] == ToCamelCase(FlatIds(gs)[n])
    {
      var s := Locate(gs, n);
      WalkAt(gs, s, IdOfGenre, IdOfSubgenre);
    }
  }

  /** Member names with none empty and none declared twice. The compiler needs both of an
      enum's members; they are not enough, since a name may still start with a digit or be a
      keyword. */
  predicate NonEmptyDistinct(names: seq<string>)
  {
    && (forall n :: 0 <= n < |names| ==> names[n] != "")
    && (forall m, n :: 0 <= m < n < |names| ==> names[m] != names[n])
  }

  /** What the member lines decide about whether the compiler accepts the enum: the names are
      non-empty and distinct. This speaks of the enum text only while every line of the model
      is one physical line (`LineModelIsText`); whether a name is a Rust identifier (not
      starting with a digit, say) is not decided here. */
  predicate EnumAccepted(lines: seq<Line>)
  {
    NonEmptyDistinct(Variants(lines))
  }

  /** The same condition, stated on the taxonomy: the normalised ids are non-empty and
      pairwise distinct. */
  predicate AcceptableTaxonomy(gs: seq<Genre>)
  {
    NonEmptyDistinct(Map(ToCamelCase, FlatIds(gs)))
  }

  /** The member lines are acceptable exactly when the normalised ids are non-empty and
      pairwise distinct. Nothing in `main` checks either. */
  lemma EnumAcceptedIff(gs: seq<Genre>)
    ensures EnumAccepted(VariantLines(gs)) <==> AcceptableTaxonomy(gs)
  {
    MembersAsIds(gs);
  }

  const CommentOpen: string := "// ===== Genre: "
  const CommentClose: string := " ====="
  const Indent: string := "    "
  const Comma: string := ","

  /** The fixed pieces of the entries' text hold no line feed. */
  lemma FixedTextOneLine()
    ensures OneLine(CommentOpen) && OneLine(CommentClose) && OneLine(Indent) && OneLine(Comma)
  {
    assert CommentOpen == ['/', '/', ' ', '=', '=', '=', '=', '=', ' ', 'G', 'e', 'n', 'r', 'e', ':', ' '];
    assert CommentClose == [' ', '=', '=', '=', '=', '='];
    assert Indent == [' ', ' ', ' ', ' '];
  }

  /** The text of one entry of `all_variants`. */
  function LineText(l: Line): string
  {
    match l
    case GenreComment(n) => CommentOpen + n + CommentClose
    case Variant(v) => Indent + v + Comma
    case Blank => ""
  }

  /** The enum body: the entries of `all_variants` joined with line feeds. */
  function EnumText(gs: seq<Genre>): string
  {
    JoinLines(Map(LineText, VariantLines(gs)))
  }

  /** Genre names and member names without line feeds. */
  predicate OneLineNames(gs: seq<Genre>)
  {
    && (forall k :: 0 <= k < |gs| ==> OneLine(gs[k].name))
    && AllOneLine(Map(ToCamelCase, FlatIds(gs)))
  }

  /** While names are one line long, the physical lines of the enum body are exactly the
      entries of `all_variants`, so the line model is the text. */
  lemma LineModelIsText(gs: seq<Genre>)
    requires |gs| > 0 && OneLineNames(gs)
    ensures Lines(EnumText(gs)) == Map(LineText, VariantLines(gs))
  {
    EntriesOneLine(gs);
    LinesOfEntries(VariantLines(gs));
  }

  /** Every comment of `lines` is one line long. */
  predicate CommentsOneLineIn(lines: seq<Line>)
  {
    forall i :: 0 <= i < |lines| && lines[i].GenreComment? ==> OneLine(lines[i].genreName)
  }

  /** One-line names make every comment and every member of `all_variants` one line long. */
  lemma EntriesOneLine(gs: seq<Genre>)
    requires OneLineNames(gs)
    ensures CommentsOneLineIn(VariantLines(gs)) && AllOneLine(Variants(VariantLines(gs)))
  {
    CommentsOneLine(gs);
    MembersAsIds(gs);
  }

  /** Lines whose comments and members are one line long are the physical lines of their
      joined text. */
  lemma LinesOfEntries(lines: seq<Line>)
    requires |lines| > 0 && CommentsOneLineIn(lines) && AllOneLine(Variants(lines))
    ensures Lines(JoinLines(Map(LineText, lines))) == Map(LineText, lines)
  {
    var texts := Map(LineText, lines);
    forall i | 0 <= i < |texts|
      ensures OneLine(texts[i])
    {
      LineTextOneLine(lines, i);
    }
    LinesOfJoin(texts);
  }

  /** An entry's text is one line when every comment and every member name is. */
  lemma LineTextOneLine(lines: seq<Line>, i: nat)
    requires CommentsOneLineIn(lines) && AllOneLine(Variants(lines))
    requires i < |lines|
    ensures OneLine(LineText(lines[i]))
  {
    FixedTextOneLine();
    if lines[i].GenreComment? {
      OneLineAppend(CommentOpen, lines[i].genreName);
      OneLineAppend(CommentOpen + lines[i].genreName, CommentClose);
    } else if lines[i].Variant? {
      VariantLineIn(lines, i);
      OneLineMember(Variants(lines), lines[i].name);
      OneLineAppend(Indent, lines[i].name);
      OneLineAppend(Indent + lines[i].name, Comma);
    }
  }

  /** Every variant line's name is among the declared members. */
  lemma {:induction false} VariantLineIn(lines: seq<Line>, i: nat)
    requires i < |lines| && lines[i].Variant?
    ensures lines[i].name in Variants(lines)
    decreases i
  {
    if i > 0 {
      VariantLineIn(lines[1..], i - 1);
    }
  }

  /** A genre name holding a line feed does not fit its comment: the comment's line ends at the
      line feed, and the rest of the name, with the comment's closing, is enum-body text that
      no `//` covers. Such text may be ignored, rejected or read as more members. */
  lemma MultiLineNameLeavesComment(name: string, i: nat)
    requires i < |name| && name[i] == '\n' && OneLine(name[..i])
    ensures |Lines(LineText(GenreComment(name)))| >= 2
    ensures Lines(LineText(GenreComment(name)))[0] == CommentOpen + name[..i]
    ensures JoinLines(Lines(LineText(GenreComment(name)))[1..]) == name[i + 1..] + CommentClose
  {
    var head, tail := CommentOpen + name[..i], name[i + 1..] + CommentClose;
    var text := LineText(GenreComment(name));
    FixedTextOneLine();
    assert name == name[..i] + "\n" + name[i + 1..];
    assert text == head + "\n" + tail;
    OneLineAppend(CommentOpen, name[..i]);
    FirstLineOf(head, tail);
    assert text[|head| + 1..] == tail;
  }

  /** Every comment line is one line long exactly when every genre name is. */
  lemma CommentsOneLine(gs: seq<Genre>)
    ensures (forall i :: 0 <= i < |VariantLines(gs)| && VariantLines(gs)[i].GenreComment? ==> OneLine(VariantLines(gs)[i].genreName))
            <==> (forall k :: 0 <= k < |gs| ==> OneLine(gs[k].name))
  {
    var lines := VariantLines(gs);
    assert CommentsAreNames(lines, gs);
    if forall k :: 0 <= k < |gs| ==> OneLine(gs[k].name) {
      forall i | 0 <= i < |lines| && lines[i].GenreComment?
        ensures OneLine(lines[i].genreName)
      {
        var k :| 0 <= k < |gs| && lines[i].genreName == gs[k].name;
      }
    }
    if forall i :: 0 <= i < |lines| && lines[i].GenreComment? ==> OneLine(lines[i].genreName) {
      forall k | 0 <= k < |gs|
        ensures OneLine(gs[k].name)
      {
        var i :| 0 <= i < |lines| && lines[i] == GenreComment(gs[k].name);
      }
    }
  }

  /** The member names are the normalised flattened ids. */
  lemma MembersAsIds(gs: seq<Genre>)
    ensures Variants(VariantLines(gs)) == Map(ToCamelCase, FlatIds(gs))
  {
    VariantsAreNormalisedIds(gs);
  }

  /** Nothing checks for collisions: two nodes whose ids normalise alike become two enum
      members with one name, at two different ordinals, so the member lines are not
      acceptable. With `CamelCaseNotInjective`, genres `hard_rock` and `hard-rock` are such a
      pair. */
  lemma CollisionReachesEnum(gs: seq<Genre>, a: Slot, b: Slot)
    requires ValidSlot(gs, a) && ValidSlot(gs, b) && a != b
    requires ToCamelCase(Emitted(gs, a, IdOfGenre, IdOfSubgenre)) == ToCamelCase(Emitted(gs, b, IdOfGenre, IdOfSubgenre))
    ensures Ordinal(gs, a) != Ordinal(gs, b)
    ensures |Variants(VariantLines(gs))| == Size(gs)
    ensures Variants(VariantLines(gs))[Ordinal(gs, a)] == Variants(VariantLines(gs))[Ordinal(gs, b)]
    ensures !EnumAccepted(VariantLines(gs))
  {
    EnumOrdinals(gs);
    if Ordinal(gs, a) == Ordinal(gs, b) {
      OrdinalInjective(gs, a, b);
    }
    DuplicateRejected(VariantLines(gs), Ordinal(gs, a), Ordinal(gs, b));
  }

  /** Two members with one name at two positions make the enum unacceptable. */
  lemma DuplicateRejected(lines: seq<Line>, m: nat, n: nat)
    requires m < |Variants(lines)| && n < |Variants(lines)| && m != n
    requires Variants(lines)[m] == Variants(lines)[n]
    ensures !EnumAccepted(lines)
  {
    var vs := Variants(lines);
    if m < n {
      assert vs[m] == vs[n];
    } else {
      assert vs[n] == vs[m];
    }
  }
}

=== FILE: genre_api.dfy ===
/** The read-only queries of `GenreApi` in rust/src/wasm_api.rs, over the entry table. The
    conversion of results to JavaScript values is left out; each query returns the entries. */
module GenreApi {
  import opened Wrappers
  import opened Seqs
  import opened IndexEmitter

  /** `get_all_genre_entries`: the generated table with the `js` feature, the empty table
      without it. Every query below reads this table. */
  function AllEntries(jsFeature: bool, generated: seq<GenreEntry>): (t: seq<GenreEntry>)
    ensures jsFeature ==> t == generated
    ensures !jsFeature ==> |t| == 0
  {
    if jsFeature then generated else []
  }

  predicate IsGenre(e: GenreEntry)
  {
    e.genreType == GenreKind
  }

  predicate IsSubgenre(e: GenreEntry)
  {
    e.genreType == SubgenreKind
  }

  /** The filter of `get_subgenres_of`: `entry.parent_id.as_ref() == Some(&parent_id)`. */
  function ChildOf(parent: string): GenreEntry -> bool
  {
    (e: GenreEntry) => e.parentId == Some(parent)
  }

  /** `get_genres`: exactly the entries of kind Genre, in table order. */
  function GetGenres(t: seq<GenreEntry>): (r: seq<GenreEntry>)
    ensures |r| == |Positions(IsGenre, t)|
    ensures forall k :: 0 <= k < |r| ==> r[k] == t[Positions(IsGenre, t)[k]] && r[k].genreType == GenreKind
  {
    Filter(IsGenre, t)
  }

  /** `get_subgenres_of`: exactly the entries whose parent is `parent`, in table order. An
      unknown parent is not an error: it yields the empty sequence. */
  function GetSubgenresOf(t: seq<GenreEntry>, parent: string): (r: seq<GenreEntry>)
    ensures |r| == |Positions(ChildOf(parent), t)|
    ensures forall k :: 0 <= k < |r| ==> r[k] == t[Positions(ChildOf(parent), t)[k]] && r[k].parentId == Some(parent)
  {
    Filter(ChildOf(parent), t)
  }

  /** Index of the first entry whose id is `id`, or `|t|` when there is none. */
  function FirstMatch(t: seq<GenreEntry>, id: string): (i: nat)
    ensures i <= |t|
    ensures forall j :: 0 <= j < i ==> t[j].id != id
    ensures i < |t| ==> t[i].id == id
  {
    if |t| == 0 || t[0].id == id then 0 else 1 + FirstMatch(t[1..], id)
  }

  /** `get_genre_by_id`: `find` over the table; `None` when no entry has that id. */
  function GetGenreById(t: seq<GenreEntry>, id: string): (r: Option<GenreEntry>)
    ensures r.None? <==> forall i :: 0 <= i < |t| ==> t[i].id != id
    ensures r.Some? ==> r.value == t[FirstMatch(t, id)] && r.value.id == id
  {
    if |t| == 0 then None
    else if t[0].id == id then Some(t[0])
    else GetGenreById(t[1..], id)
  }

  /** `is_valid_genre_id`: `any` over the table. */
  function IsValidGenreId(t: seq<GenreEntry>, id: string): (b: bool)
    ensures b <==> exists i :: 0 <= i < |t| && t[i].id == id
  {
    |t| > 0 && (t[0].id == id || IsValidGenreId(t[1..], id))
  }

  /** `get_genre_name`: the lookup mapped to the entry's name. */
  function GetGenreName(t: seq<GenreEntry>, id: string): (r: Option<string>)
    ensures r.Some? <==> exists i :: 0 <= i < |t| && t[i].id == id
    ensures r.Some? ==> r.value == t[FirstMatch(t, id)].name
  {
    match GetGenreById(t, id)
    case Some(e) => Some(e.name)
    case None => None
  }

  /** `HierarchicalGenre` in `get_hierarchical_genres`, keeping the enum member itself where
      the source keeps its debug string. */
  datatype HierarchicalGenre = HierarchicalGenre(id: string, name: string, genreId: string, subgenres: seq<GenreEntry>)

  function GroupOf(t: seq<GenreEntry>): GenreEntry -> HierarchicalGenre
  {
    (g: GenreEntry) => HierarchicalGenre(g.id, g.name, g.genreId, GetSubgenresOf(t, g.id))
  }

  /** `get_hierarchical_genres`: one group per Genre entry, in table order, each holding the
      subgenres whose parent is that genre. */
  function GetHierarchicalGenres(t: seq<GenreEntry>): (h: seq<HierarchicalGenre>)
    ensures |h| == |Positions(IsGenre, t)|
    ensures forall k :: 0 <= k < |h| ==>
              && h[k].id == t[Positions(IsGenre, t)[k]].id
              && h[k].name == t[Positions(IsGenre, t)[k]].name
              && h[k].genreId == t[Positions(IsGenre, t)[k]].genreId
              && h[k].subgenres == GetSubgenresOf(t, h[k].id)
  {
    Map(GroupOf(t), GetGenres(t))
  }

  /** `is_valid_genre_id` and `get_genre_by_id` agree although one uses `any` and the other `find`. */
  lemma ValidIffFound(t: seq<GenreEntry>, id: string)
    ensures IsValidGenreId(t, id) <==> GetGenreById(t, id).Some?
    ensures IsValidGenreId(t, id) <==> GetGenreName(t, id).Some?
  {
  }

  /** Any entry is found by the first entry carrying its id. */
  lemma FindsFirst(t: seq<GenreEntry>, id: string, i: nat)
    requires i < |t| && t[i].id == id
    requires forall j :: 0 <= j < i ==> t[j].id != id
    ensures GetGenreById(t, id) == Some(t[i])
    ensures GetGenreName(t, id) == Some(t[i].name)
  {
  }

  predicate IdsDistinct(t: seq<GenreEntry>)
  {
    forall a, b :: 0 <= a < b < |t| ==> t[a].id != t[b].id
  }

  /** With pairwise distinct ids, looking an entry up by its id gives the entry back. */
  lemma LookupRoundTrip(t: seq<GenreEntry>, i: nat)
    requires IdsDistinct(t) && i < |t|
    ensures GetGenreById(t, t[i].id) == Some(t[i])
  {
    FindsFirst(t, t[i].id, i);
  }

  /** A parent no entry points at yields the empty sequence rather than an error. */
  lemma UnknownParentIsEmpty(t: seq<GenreEntry>, parent: string)
    requires forall i :: 0 <= i < |t| ==> t[i].parentId != Some(parent)
    ensures GetSubgenresOf(t, parent) == []
  {
    FilterNone(ChildOf(parent), t);
  }

  /** In a table where genre entries have no parent, `get_subgenres_of` never returns a genre. */
  lemma SubgenresAreNotGenres(t: seq<GenreEntry>, parent: string)
    requires forall i :: 0 <= i < |t| ==> (t[i].genreType == GenreKind ==> t[i].parentId.None?)
    ensures forall k :: 0 <= k < |GetSubgenresOf(t, parent)| ==> GetSubgenresOf(t, parent)[k].genreType == SubgenreKind
  {
  }

  /** Without the `js` feature the table is empty: every list is empty, every lookup is
      `None` and no id is valid. */
  lemma FeatureOffIsEmpty(generated: seq<GenreEntry>, id: string, parent: string)
    ensures GetGenres(AllEntries(false, generated)) == []
    ensures GetSubgenresOf(AllEntries(false, generated), parent) == []
    ensures GetGenreById(AllEntries(false, generated), id) == None
    ensures GetGenreName(AllEntries(false, generated), id) == None
    ensures !IsValidGenreId(AllEntries(false, generated), id)
    ensures GetHierarchicalGenres(AllEntries(false, generated)) == []
  {
  }
}

=== FILE: hierarchy.dfy ===
/** What the queries of rust/src/wasm_api.rs return over the table generated from a taxonomy:
    the generated table reproduces the two-level hierarchy it was built from. */
module Hierarchy {
  import opened Wrappers
  import opened Seqs
  import opened Taxonomy
  import opened Normalise
  import opened IndexEmitter
  import opened GenreApi

  /** No two top-level genres share an id. Nothing in the generators checks this; it is the
      hypothesis under which the containment lemmas below hold. */
  predicate GenreIdsDistinct(gs: seq<Genre>)
  {
    forall a, b :: 0 <= a < b < |gs| ==> gs[a].id != gs[b].id
  }

  /** The subgenre entries of every genre whose id is `x`, genre by genre. */
  function ChildrenOf(gs: seq<Genre>, x: string): seq<GenreEntry>
  {
    if |gs| == 0 then []
    else (if gs[0].id == x then SubWalk(gs[0], SubgenreEntryOf) else []) + ChildrenOf(gs[1..], x)
  }

  /** One block of subgenre entries per genre, in order. */
  function Blocks(gs: seq<Genre>): (bs: seq<seq<GenreEntry>>)
    ensures |bs| == |gs|
  {
    seq(|gs|, k requires 0 <= k < |gs| => SubWalk(gs[k], SubgenreEntryOf))
  }

  function Members(h: HierarchicalGenre): seq<GenreEntry>
  {
    h.subgenres
  }

  /** Splits the generated table into its first genre's head entry, that genre's subgenre
      entries and the rest of the table. */
  lemma Unfold(gs: seq<Genre>)
    requires |gs| > 0
    ensures GenerateEntries(gs) == [GenreEntryOf(gs[0])] + SubWalk(gs[0], SubgenreEntryOf) + GenerateEntries(gs[1..])
  {
  }

  lemma {:induction false} ChildrenInTable(gs: seq<Genre>, x: string)
    ensures GetSubgenresOf(GenerateEntries(gs), x) == ChildrenOf(gs, x)
  {
    if |gs| > 0 {
      var head, sub := [GenreEntryOf(gs[0])], SubWalk(gs[0], SubgenreEntryOf);
      Unfold(gs);
      FilterNone(ChildOf(x), head);
      if gs[0].id == x {
        FilterAll(ChildOf(x), sub);
      } else {
        FilterNone(ChildOf(x), sub);
      }
      FilterAfterSkip(ChildOf(x), head, sub, GenerateEntries(gs[1..]), if gs[0].id == x then sub else []);
      ChildrenInTable(gs[1..], x);
    }
  }

  lemma {:induction false} ChildrenOfAbsent(gs: seq<Genre>, x: string)
    requires forall k :: 0 <= k < |gs| ==> gs[k].id != x
    ensures ChildrenOf(gs, x) == []
  {
    if |gs| > 0 {
      ChildrenOfAbsent(gs[1..], x);
    }
  }

  lemma {:induction false} ChildrenOfGenre(gs: seq<Genre>, k: nat)
    requires GenreIdsDistinct(gs) && k < |gs|
    ensures ChildrenOf(gs, gs[k].id) == SubWalk(gs[k], SubgenreEntryOf)
  {
    if k == 0 {
      ChildrenOfAbsent(gs[1..], gs[0].id);
    } else {
      assert gs[0].id != gs[k].id;
      ChildrenOfGenre(gs[1..], k - 1);
    }
  }

  /** `get_subgenres_of(g.id)` on the generated table is exactly g's subgenres, in declared
      order, each recording g as its parent. */
  lemma SubgenresOfGenre(gs: seq<Genre>, k: nat)
    requires GenreIdsDistinct(gs) && k < |gs|
    ensures GetSubgenresOf(GenerateEntries(gs), gs[k].id) == SubWalk(gs[k], SubgenreEntryOf)
    ensures |GetSubgenresOf(GenerateEntries(gs), gs[k].id)| == |gs[k].subgenres|
    ensures forall j :: 0 <= j < |gs[k].subgenres| ==>
              GetSubgenresOf(GenerateEntries(gs), gs[k].id)[j] ==
                GenreEntry(gs[k].subgenres[j].id, gs[k].subgenres[j].name, SubgenreKind, Some(gs[k].id), ToCamelCase(gs[k].subgenres[j].id))
  {
    ChildrenInTable(gs, gs[k].id);
    ChildrenOfGenre(gs, k);
  }

  /** An id that is no genre's id (a subgenre's id, or an unknown one) has no subgenres. */
  lemma NonGenreHasNoSubgenres(gs: seq<Genre>, x: string)
    requires forall k :: 0 <= k < |gs| ==> gs[k].id != x
    ensures GetSubgenresOf(GenerateEntries(gs), x) == []
  {
    ChildrenInTable(gs, x);
    ChildrenOfAbsent(gs, x);
  }

  lemma {:induction false} GenresOfTable(gs: seq<Genre>)
    ensures GetGenres(GenerateEntries(gs)) == Map(GenreEntryOf, gs)
  {
    if |gs| > 0 {
      var head := [GenreEntryOf(gs[0])];
      var sub := SubWalk(gs[0], SubgenreEntryOf);
      Unfold(gs);
      FilterAll(IsGenre, head);
      FilterNone(IsGenre, sub);
      FilterBeforeSkip(IsGenre, head, sub, GenerateEntries(gs[1..]), head);
      GenresOfTable(gs[1..]);
      MapCons(GenreEntryOf, gs);
    }
  }

  /** `get_genres` on the generated table lists exactly the top-level genres, in order. */
  lemma GenresAreTopLevel(gs: seq<Genre>)
    ensures |GetGenres(GenerateEntries(gs))| == |gs|
    ensures forall k :: 0 <= k < |gs| ==>
              GetGenres(GenerateEntries(gs))[k] == GenreEntry(gs[k].id, gs[k].name, GenreKind, None, ToCamelCase(gs[k].id))
  {
    GenresOfTable(gs);
  }

  lemma BlocksCons(gs: seq<Genre>)
    requires |gs| > 0
    ensures Concat(Blocks(gs)) == SubWalk(gs[0], SubgenreEntryOf) + Concat(Blocks(gs[1..]))
  {
    assert Blocks(gs)[1..] == Blocks(gs[1..]);
  }

  lemma {:induction false} SubgenresOfTable(gs: seq<Genre>)
    ensures Filter(IsSubgenre, GenerateEntries(gs)) == Concat(Blocks(gs))
  {
    if |gs| > 0 {
      var head := [GenreEntryOf(gs[0])];
      var sub := SubWalk(gs[0], SubgenreEntryOf);
      Unfold(gs);
      FilterNone(IsSubgenre, head);
      FilterAll(IsSubgenre, sub);
      FilterAfterSkip(IsSubgenre, head, sub, GenerateEntries(gs[1..]), sub);
      SubgenresOfTable(gs[1..]);
      BlocksCons(gs);
    }
  }

  lemma GroupAt(gs: seq<Genre>, k: nat)
    requires GenreIdsDistinct(gs) && k < |gs|
    ensures |GetHierarchicalGenres(GenerateEntries(gs))| == |gs|
    ensures GetHierarchicalGenres(GenerateEntries(gs))[k] ==
              HierarchicalGenre(gs[k].id, gs[k].name, ToCamelCase(gs[k].id), SubWalk(gs[k], SubgenreEntryOf))
  {
    GenresOfTable(gs);
    SubgenresOfGenre(gs, k);
  }

  lemma MembersAreBlocks(gs: seq<Genre>)
    requires GenreIdsDistinct(gs)
    ensures Map(Members, GetHierarchicalGenres(GenerateEntries(gs))) == Blocks(gs)
  {
    GenresOfTable(gs);
    forall k | 0 <= k < |gs|
      ensures Map(Members, GetHierarchicalGenres(GenerateEntries(gs)))[k] == Blocks(gs)[k]
    {
      GroupAt(gs, k);
    }
  }

  /** `get_hierarchical_genres` on the generated table gives back the taxonomy: one group per
      genre in order, each with that genre's subgenre entries; the groups together hold every
      Subgenre entry of the table exactly once, in table order. */
  lemma HierarchyReproducesTaxonomy(gs: seq<Genre>)
    requires GenreIdsDistinct(gs)
    ensures |GetHierarchicalGenres(GenerateEntries(gs))| == |gs|
    ensures forall k :: 0 <= k < |gs| ==>
              GetHierarchicalGenres(GenerateEntries(gs))[k] ==
                HierarchicalGenre(gs[k].id, gs[k].name, ToCamelCase(gs[k].id), SubWalk(gs[k], SubgenreEntryOf))
    ensures Concat(Map(Members, GetHierarchicalGenres(GenerateEntries(gs)))) == Filter(IsSubgenre, GenerateEntries(gs))
  {
    GenresOfTable(gs);
    forall k | 0 <= k < |gs|
      ensures GetHierarchicalGenres(GenerateEntries(gs))[k] ==
                HierarchicalGenre(gs[k].id, gs[k].name, ToCamelCase(gs[k].id), SubWalk(gs[k], SubgenreEntryOf))
    {
      GroupAt(gs, k);
    }
    MembersAreBlocks(gs);
    SubgenresOfTable(gs);
  }

  /** No two nodes of the taxonomy, genre or subgenre, share an id. */
  predicate NodeIdsDistinct(gs: seq<Genre>)
  {
    forall a, b :: 0 <= a < b < |FlatIds(gs)| ==> FlatIds(gs)[a] != FlatIds(gs)[b]
  }

  /** With unique node ids, every node is found by its id in the generated table: the lookup
      yields that node's entry, its name, and the id is valid. */
  lemma LookupEveryNode(gs: seq<Genre>, s: Slot)
    requires NodeIdsDistinct(gs) && ValidSlot(gs, s)
    ensures GetGenreById(GenerateEntries(gs), GenerateEntries(gs)[Ordinal(gs, s)].id) == Some(GenerateEntries(gs)[Ordinal(gs, s)])
    ensures
      match s
      case GenreSlot(k) =>
        && GetGenreName(GenerateEntries(gs), gs[k].id) == Some(gs[k].name)
        && IsValidGenreId(GenerateEntries(gs), gs[k].id)
      case SubgenreSlot(k, j) =>
        && GetGenreName(GenerateEntries(gs), gs[k].subgenres[j].id) == Some(gs[k].subgenres[j].name)
        && IsValidGenreId(GenerateEntries(gs), gs[k].subgenres[j].id)
  {
    var t := GenerateEntries(gs);
    Lockstep(gs);
    assert IdsDistinct(t) by {
      forall a, b | 0 <= a < b < |t| ensures t[a].id != t[b].id {
        assert t[a].id == FlatIds(gs)[a] && t[b].id == FlatIds(gs)[b];
      }
    }
    EntryAtOrdinal(gs, s);
    LookupRoundTrip(t, Ordinal(gs, s));
  }
}

=== FILE: index_emitter.dfy ===
/** The entry table written by `generate_wasm_api` in rust/build.rs and read back by
    `get_all_genre_entries_generated`: one `GenreEntry` per node, in traversal order. */
module IndexEmitter {
  import opened Wrappers
  import opened Taxonomy
  import opened Normalise
  import opened EnumEmitter
  import opened RustStringLiteral

  /** `GenreType` in rust/src/wasm_api.rs. */
  datatype GenreType = GenreKind | SubgenreKind

  /** `GenreEntry` in rust/src/wasm_api.rs. `genreId` is the `GenreId` enum member, by name. */
  datatype GenreEntry = GenreEntry(id: string, name: string, genreType: GenreType, parentId: Option<string>, genreId: string)

  function GenreEntryOf(g: Genre): GenreEntry
  {
    GenreEntry(g.id, g.name, GenreKind, None, ToCamelCase(g.id))
  }

  function SubgenreEntryOf(g: Genre, s: SubGenre): GenreEntry
  {
    GenreEntry(s.id, s.name, SubgenreKind, Some(g.id), ToCamelCase(s.id))
  }

  /** The table as the compiled program holds it, built by the same walk as the enum. */
  function GenerateEntries(gs: seq<Genre>): (t: seq<GenreEntry>)
    ensures |t| == Size(gs)
    ensures forall n :: 0 <= n < |t| ==> t[n].genreId == ToCamelCase(t[n].id)
    ensures forall n :: 0 <= n < |t| ==> (t[n].genreType == GenreKind <==> t[n].parentId.None?)
  {
    EntriesWellFormed(gs);
    Walk(gs, GenreEntryOf, SubgenreEntryOf)
  }

  lemma EntriesWellFormed(gs: seq<Genre>)
    ensures forall n :: 0 <= n < Size(gs) ==>
              && Walk(gs, GenreEntryOf, SubgenreEntryOf)[n].genreId == ToCamelCase(Walk(gs, GenreEntryOf, SubgenreEntryOf)[n].id)
              && (Walk(gs, GenreEntryOf, SubgenreEntryOf)[n].genreType == GenreKind <==> Walk(gs, GenreEntryOf, SubgenreEntryOf)[n].parentId.None?)
  {
    forall n | 0 <= n < Size(gs)
      ensures Walk(gs, GenreEntryOf, SubgenreEntryOf)[n].genreId == ToCamelCase(Walk(gs, GenreEntryOf, SubgenreEntryOf)[n].id)
      ensures Walk(gs, GenreEntryOf, SubgenreEntryOf)[n].genreType == GenreKind <==> Walk(gs, GenreEntryOf, SubgenreEntryOf)[n].parentId.None?
    {
      WalkAt(gs, Locate(gs, n), GenreEntryOf, SubgenreEntryOf);
    }
  }

  /** The entry at each node's ordinal: a genre gets kind Genre and no parent, a subgenre gets
      kind Subgenre and its owning genre's id as parent; both carry their normalised id. */
  lemma EntryAtOrdinal(gs: seq<Genre>, s: Slot)
    requires ValidSlot(gs, s)
    ensures GenerateEntries(gs)[Ordinal(gs, s)] ==
              match s
              case GenreSlot(k) => GenreEntry(gs[k].id, gs[k].name, GenreKind, None, ToCamelCase(gs[k].id))
              case SubgenreSlot(k, j) =>
                GenreEntry(gs[k].subgenres[j].id, gs[k].subgenres[j].name, SubgenreKind, Some(gs[k].id), ToCamelCase(gs[k].subgenres[j].id))
  {
    WalkAt(gs, s, GenreEntryOf, SubgenreEntryOf);
  }

  /** The entry walk and the enum walk stay in lockstep: the n-th entry names the n-th enum
      member, and its id is the n-th flattened id. */
  lemma Lockstep(gs: seq<Genre>)
    ensures |GenerateEntries(gs)| == |Variants(VariantLines(gs))| == |FlatIds(gs)|
    ensures forall n :: 0 <= n < |GenerateEntries(gs)| ==>
              && GenerateEntries(gs)[n].genreId == Variants(VariantLines(gs))[n]
              && GenerateEntries(gs)[n].id == FlatIds(gs)[n]
  {
    VariantsAreNormalisedIds(gs);
    EntryIds(gs);
  }

  lemma EntryIds(gs: seq<Genre>)
    ensures forall n :: 0 <= n < Size(gs) ==> GenerateEntries(gs)[n].id == FlatIds(gs)[n]
  {
    forall n | 0 <= n < Size(gs)
      ensures GenerateEntries(gs)[n].id == FlatIds(gs)[n]
    {
      var s := Locate(gs, n);
      WalkAt(gs, s, GenreEntryOf, SubgenreEntryOf);
      WalkAt(gs, s, IdOfGenre, IdOfSubgenre);
    }
  }

  /** Which name escaping the generator applies: the one in rust/build.rs, or the one that
      also escapes backslashes and carriage returns. */
  datatype Escaping = AsWritten | Corrected

  function EscapeName(e: Escaping, name: string): string
  {
    match e
    case AsWritten => EscapeQuotes(name)
    case Corrected => EscapeLiteral(name)
  }

  /** One record as written into the generated source: id and parent id go verbatim between
      quotes, the name goes through the escaping. */
  datatype EmittedEntry = EmittedEntry(idText: string, nameText: string, genreType: GenreType, parentText: Option<string>, variant: string)

  /** The record written for a genre (rust/build.rs lines 117-128). */
  function EmitGenre(e: Escaping): Genre -> EmittedEntry
  {
    (g: Genre) => EmittedEntry(g.id, EscapeName(e, g.name), GenreKind, None, ToCamelCase(g.id))
  }

  /** The record written for a subgenre (rust/build.rs lines 132-144). */
  function EmitSubgenre(e: Escaping): (Genre, SubGenre) -> EmittedEntry
  {
    (g: Genre, s: SubGenre) => EmittedEntry(s.id, EscapeName(e, s.name), SubgenreKind, Some(g.id), ToCamelCase(s.id))
  }

  /** The records as written: each carries its entry's id, kind, parent and enum member
      verbatim, and only the name goes through the escaping. */
  function EmitEntries(gs: seq<Genre>, e: Escaping): (es: seq<EmittedEntry>)
    ensures |es| == Size(gs)
    ensures forall n :: 0 <= n < |es| ==> RecordOf(es[n], GenerateEntries(gs)[n], e)
  {
    RecordsOfEntries(gs, e);
    Walk(gs, EmitGenre(e), EmitSubgenre(e))
  }

  /** `r` is `x` as written with the escaping `e`. */
  predicate RecordOf(r: EmittedEntry, x: GenreEntry, e: Escaping)
  {
    && r.idText == x.id
    && r.nameText == EscapeName(e, x.name)
    && r.genreType == x.genreType
    && r.parentText == x.parentId
    && r.variant == x.genreId
  }

  lemma RecordsOfEntries(gs: seq<Genre>, e: Escaping)
    ensures forall n :: 0 <= n < Size(gs) ==> RecordOf(Walk(gs, EmitGenre(e), EmitSubgenre(e))[n], GenerateEntries(gs)[n], e)
  {
    forall n | 0 <= n < Size(gs)
      ensures RecordOf(Walk(gs, EmitGenre(e), EmitSubgenre(e))[n], GenerateEntries(gs)[n], e)
    {
      var s := Locate(gs, n);
      WalkAt(gs, s, EmitGenre(e), EmitSubgenre(e));
      WalkAt(gs, s, GenreEntryOf, SubgenreEntryOf);
    }
  }

  /** How the compiler reads one emitted record back; `None` when a literal is unreadable. */
  function CompileEntry(r: EmittedEntry): Option<GenreEntry>
  {
    match (Decode(r.idText), Decode(r.nameText))
    case (Some(id), Some(name)) =>
      (match r.parentText
       case None => Some(GenreEntry(id, name, r.genreType, None, r.variant))
       case Some(p) =>
         (match Decode(p)
          case Some(parent) => Some(GenreEntry(id, name, r.genreType, Some(parent), r.variant))
          case None => None))
    case _ => None
  }

  /** The compiled table, or `None` if any record fails to compile. */
  function Compile(es: seq<EmittedEntry>): (r: Option<seq<GenreEntry>>)
    ensures r.Some? <==> forall n :: 0 <= n < |es| ==> CompileEntry(es[n]).Some?
    ensures r.Some? ==> |r.value| == |es| && forall n :: 0 <= n < |es| ==> CompileEntry(es[n]) == Some(r.value[n])
  {
    if |es| == 0 then Some([])
    else
      match (CompileEntry(es[0]), Compile(es[1..]))
      case (Some(x), Some(rest)) => Some([x] + rest)
      case (None, _) => None
      case (_, None) => None
  }

  /** Text that can sit between quotes as is: no backslash, double quote or carriage return. */
  predicate PlainText(s: string)
  {
    forall i :: 0 <= i < |s| ==> s[i] != '\\' && s[i] != '"' && s[i] != '\r'
  }

  lemma {:induction false} DecodePlainText(s: string)
    requires PlainText(s)
    ensures Decode(s) == Some(s)
    decreases |s|
  {
    if |s| > 0 {
      DecodePlainText(s[1..]);
      DecodePlain(s[0], s[1..]);
      assert [s[0]] + s[1..] == s;
    }
  }

  /** Every genre and subgenre id is plain text (ids are written without any escaping). */
  predicate PlainIds(gs: seq<Genre>)
  {
    forall k :: 0 <= k < |gs| ==>
      && PlainText(gs[k].id)
      && forall j :: 0 <= j < |gs[k].subgenres| ==> PlainText(gs[k].subgenres[j].id)
  }

  /** No display name holds a backslash or a carriage return. */
  predicate NamesReadBack(gs: seq<Genre>)
  {
    forall k :: 0 <= k < |gs| ==>
      && NoBackslashOrCr(gs[k].name)
      && forall j :: 0 <= j < |gs[k].subgenres| ==> NoBackslashOrCr(gs[k].subgenres[j].name)
  }

  predicate NoBackslashOrCr(s: string)
  {
    forall i :: 0 <= i < |s| ==> s[i] != '\\' && s[i] != '\r'
  }

  /** A record-by-record agreement makes the whole compiled table agree. */
  lemma CompileAgrees(es: seq<EmittedEntry>, t: seq<GenreEntry>)
    requires |es| == |t|
    requires forall n :: 0 <= n < |es| ==> CompileEntry(es[n]) == Some(t[n])
    ensures Compile(es) == Some(t)
  {
  }

  /** Every display name reads back as itself after the escaping `e`. */
  predicate NamesSurvive(gs: seq<Genre>, e: Escaping)
  {
    forall k :: 0 <= k < |gs| ==>
      && Decode(EscapeName(e, gs[k].name)) == Some(gs[k].name)
      && forall j :: 0 <= j < |gs[k].subgenres| ==> Decode(EscapeName(e, gs[k].subgenres[j].name)) == Some(gs[k].subgenres[j].name)
  }

  /** One node's record compiles to that node's entry. */
  lemma SlotCompiles(gs: seq<Genre>, e: Escaping, s: Slot)
    requires PlainIds(gs) && NamesSurvive(gs, e) && ValidSlot(gs, s)
    ensures CompileEntry(EmitEntries(gs, e)[Ordinal(gs, s)]) == Some(GenerateEntries(gs)[Ordinal(gs, s)])
  {
    WalkAt(gs, s, EmitGenre(e), EmitSubgenre(e));
    WalkAt(gs, s, GenreEntryOf, SubgenreEntryOf);
    match s
    case GenreSlot(k) =>
      RecordCompiles(EmitGenre(e)(gs[k]), GenreEntryOf(gs[k]));
    case SubgenreSlot(k, j) =>
      DecodePlainText(gs[k].id);
      RecordCompiles(EmitSubgenre(e)(gs[k], gs[k].subgenres[j]), SubgenreEntryOf(gs[k], gs[k].subgenres[j]));
  }

  /** A record whose id, name and parent texts each read back as the entry's fields. */
  lemma RecordCompiles(r: EmittedEntry, x: GenreEntry)
    requires PlainText(r.idText) && r.idText == x.id
    requires Decode(r.nameText) == Some(x.name)
    requires r.genreType == x.genreType && r.variant == x.genreId
    requires r.parentText.None? <==> x.parentId.None?
    requires r.parentText.Some? ==> Decode(r.parentText.value) == x.parentId
    ensures CompileEntry(r) == Some(x)
  {
    DecodePlainText(r.idText);
  }

  /** Whenever every name survives its escaping, the compiled program holds exactly
      `GenerateEntries`. */
  lemma CompiledTableWith(gs: seq<Genre>, e: Escaping)
    requires PlainIds(gs) && NamesSurvive(gs, e)
    ensures Compile(EmitEntries(gs, e)) == Some(GenerateEntries(gs))
  {
    var es, t := EmitEntries(gs, e), GenerateEntries(gs);
    forall n | 0 <= n < |es|
      ensures CompileEntry(es[n]) == Some(t[n])
    {
      SlotCompiles(gs, e, Locate(gs, n));
    }
    CompileAgrees(es, t);
  }

  /** With the corrected escaping, the compiled program holds exactly `GenerateEntries`,
      whatever the display names contain. */
  lemma CompiledTable(gs: seq<Genre>)
    requires PlainIds(gs)
    ensures Compile(EmitEntries(gs, Corrected)) == Some(GenerateEntries(gs))
  {
    CompiledTableWith(gs, Corrected);
  }

  /** The escaping as written is enough when no name holds a backslash or a carriage return. */
  lemma CompiledTableAsWritten(gs: seq<Genre>)
    requires PlainIds(gs) && NamesReadBack(gs)
    ensures Compile(EmitEntries(gs, AsWritten)) == Some(GenerateEntries(gs))
  {
    forall k | 0 <= k < |gs|
      ensures Decode(EscapeName(AsWritten, gs[k].name)) == Some(gs[k].name)
      ensures forall j :: 0 <= j < |gs[k].subgenres| ==> Decode(EscapeName(AsWritten, gs[k].subgenres[j].name)) == Some(gs[k].subgenres[j].name)
    {
      EscapeQuotesRoundTrip(gs[k].name);
      forall j | 0 <= j < |gs[k].subgenres|
        ensures Decode(EscapeName(AsWritten, gs[k].subgenres[j].name)) == Some(gs[k].subgenres[j].name)
      {
        EscapeQuotesRoundTrip(gs[k].subgenres[j].name);
      }
    }
    CompiledTableWith(gs, AsWritten);
  }

  /** With the escaping as written, a genre named by the two characters backslash and `n`
      compiles to an entry named by a single line feed. */
  lemma AsWrittenMisreadsName(gs: seq<Genre>, k: nat)
    requires PlainIds(gs) && k < |gs| && gs[k].name == ['\\', 'n']
    ensures CompileEntry(EmitEntries(gs, AsWritten)[Ordinal(gs, GenreSlot(k))]).Some?
    ensures CompileEntry(EmitEntries(gs, AsWritten)[Ordinal(gs, GenreSlot(k))]).value.name == ['\n']
    ensures CompileEntry(EmitEntries(gs, AsWritten)[Ordinal(gs, GenreSlot(k))]).value.name != gs[k].name
  {
    WalkAt(gs, GenreSlot(k), EmitGenre(AsWritten), EmitSubgenre(AsWritten));
    EscapeQuotesMisreadsBackslash(gs[k].name);
    RecordCompiles(EmitGenre(AsWritten)(gs[k]), GenreEntry(gs[k].id, ['\n'], GenreKind, None, ToCamelCase(gs[k].id)));
  }
}

=== FILE: normalise.dfy ===
/** The identifier normaliser: `to_camel_case` in rust/build.rs and its TypeScript twin
    `toPascalCase` in js/scripts/generate.ts. Both turn a taxonomy id such as `hard_rock` into
    the enum variant name `HardRock`. Case mapping is modelled for ASCII only. */
module Normalise {
  import opened Seqs

  /** Which splitter is meant. `to_camel_case` splits at every single `_`, `-` or space;
      `toPascalCase` splits at maximal runs of `[_\-\s]`, where `\s` is ECMAScript white space. */
  datatype Dialect = Rust | Ts

  /** ECMAScript `\s`: the WhiteSpace and LineTerminator code points. */
  predicate IsJsWhitespace(c: char)
  {
    || c == '\t' || c == '\n' || c == '\U{000B}' || c == '\U{000C}' || c == '\r' || c == ' '
    || c == '\U{00A0}' || c == '\U{1680}' || ('\U{2000}' <= c <= '\U{200A}')
    || c == '\U{2028}' || c == '\U{2029}' || c == '\U{202F}' || c == '\U{205F}'
    || c == '\U{3000}' || c == '\U{FEFF}'
  }

  predicate IsSeparator(d: Dialect, c: char)
  {
    match d
    case Rust => c == '_' || c == '-' || c == ' '
    case Ts => c == '_' || c == '-' || IsJsWhitespace(c)
  }

  predicate NoSeparator(d: Dialect, w: string)
  {
    forall i :: 0 <= i < |w| ==> !IsSeparator(d, w[i])
  }

  function SeparatorCount(d: Dialect, s: string): nat
  {
    if |s| == 0 then 0
    else (if IsSeparator(d, s[0]) then 1 else 0) + SeparatorCount(d, s[1..])
  }

  /** The input with every separator deleted and everything else kept in order. */
  function RemoveSeparators(d: Dialect, s: string): (r: string)
    ensures NoSeparator(d, r)
    ensures |r| == |s| - SeparatorCount(d, s)
  {
    if |s| == 0 then ""
    else if IsSeparator(d, s[0]) then RemoveSeparators(d, s[1..])
    else [s[0]] + RemoveSeparators(d, s[1..])
  }

  /** ASCII upper-casing: `a`..`z` become `A`..`Z`, every other character is unchanged. */
  function ToUpperAscii(c: char): char
  {
    if 'a' <= c <= 'z' then (c as int - 32) as char else c
  }

  /** Upper-casing never produces a separator from a non-separator. */
  lemma UpperKeepsSeparators(d: Dialect, c: char)
    ensures IsSeparator(d, ToUpperAscii(c)) <==> IsSeparator(d, c)
  {
  }

  /** The reference reading of both normalisers, one character at a time: separators vanish,
      and a remaining character is upper-cased exactly when it starts a word, that is when it
      is the first character or follows a separator. */
  function CapitalizeWords(d: Dialect, s: string, atWordStart: bool): (r: string)
    ensures |r| == |s| - SeparatorCount(d, s)
    ensures NoSeparator(d, r)
  {
    if |s| == 0 then ""
    else if IsSeparator(d, s[0]) then CapitalizeWords(d, s[1..], true)
    else
      UpperKeepsSeparators(d, s[0]);
      [if atWordStart then ToUpperAscii(s[0]) else s[0]] + CapitalizeWords(d, s[1..], false)
  }

  /** The normalised name keeps the non-separator characters in order, each either as it is
      or upper-cased. */
  lemma {:induction false} CapitalizeWordsKeepsLetters(d: Dialect, s: string, atWordStart: bool)
    ensures |CapitalizeWords(d, s, atWordStart)| == |RemoveSeparators(d, s)|
    ensures forall i :: 0 <= i < |RemoveSeparators(d, s)| ==>
              || CapitalizeWords(d, s, atWordStart)[i] == RemoveSeparators(d, s)[i]
              || CapitalizeWords(d, s, atWordStart)[i] == ToUpperAscii(RemoveSeparators(d, s)[i])
    decreases |s|
  {
    if |s| > 0 {
      CapitalizeWordsKeepsLetters(d, s[1..], true);
      CapitalizeWordsKeepsLetters(d, s[1..], false);
    }
  }

  /** One word with its first character upper-cased; the empty word stays empty
      (`chars.next()` returning `None` in Rust, `"".charAt(0)` being `""` in TypeScript). */
  function Capitalize(w: string): string
  {
    if |w| == 0 then "" else [ToUpperAscii(w[0])] + w[1..]
  }

  /** The capitalised words concatenated: `.map(..).collect()` in Rust, `.map(..).join("")` in TypeScript. */
  function JoinCapitalized(ws: seq<string>): string
  {
    if |ws| == 0 then "" else Capitalize(ws[0]) + JoinCapitalized(ws[1..])
  }

  lemma {:induction false} JoinCapitalizedAppend(a: seq<string>, b: seq<string>)
    ensures JoinCapitalized(a + b) == JoinCapitalized(a) + JoinCapitalized(b)
    decreases |a|
  {
    if |a| == 0 {
      assert a + b == b;
    } else {
      assert (a + b)[1..] == a[1..] + b;
      JoinCapitalizedAppend(a[1..], b);
    }
  }

  predicate NonEmpty(w: string)
  {
    |w| > 0
  }

  /** Dropping empty words does not change the joined result, since an empty word
      capitalises to the empty string. */
  lemma {:induction false} JoinSkipsEmpty(ws: seq<string>)
    ensures JoinCapitalized(Filter(NonEmpty, ws)) == JoinCapitalized(ws)
    decreases |ws|
  {
    if |ws| > 0 {
      var init, last := ws[..|ws| - 1], ws[|ws| - 1];
      assert ws == init + [last];
      FilterSnoc(NonEmpty, init, last);
      JoinSkipsEmpty(init);
      var kept := if NonEmpty(last) then [last] else [];
      JoinCapitalizedAppend(Filter(NonEmpty, init), kept);
      JoinCapitalizedAppend(init, [last]);
    }
  }

  /** `str::split` with a set of single-character separators: every separator ends a piece,
      so adjacent, leading and trailing separators yield empty pieces. */
  function SplitRust(s: string): (pieces: seq<string>)
    ensures |pieces| == 1 + SeparatorCount(Rust, s)
    ensures forall k :: 0 <= k < |pieces| ==> NoSeparator(Rust, pieces[k])
    ensures Concat(pieces) == RemoveSeparators(Rust, s)
  {
    if |s| == 0 then [""]
    else
      var rest := SplitRust(s[1..]);
      if IsSeparator(Rust, s[0]) then [""] + rest
      else
        assert Concat(rest) == rest[0] + Concat(rest[1..]);
        assert ([s[0]] + rest[0]) + Concat(rest[1..]) == [s[0]] + Concat(rest);
        [[s[0]] + rest[0]] + rest[1..]
  }

  /** Both joint facts about a split: the whole split joins to the reference with a word start
      in force, and the split whose first piece is left as is joins to it without. */
  lemma {:induction false} SplitRustJoin(s: string)
    ensures JoinCapitalized(SplitRust(s)) == CapitalizeWords(Rust, s, true)
    ensures SplitRust(s)[0] + JoinCapitalized(SplitRust(s)[1..]) == CapitalizeWords(Rust, s, false)
    decreases |s|
  {
    if |s| > 0 {
      SplitRustJoin(s[1..]);
      var rest := SplitRust(s[1..]);
      if IsSeparator(Rust, s[0]) {
        assert SplitRust(s) == [""] + rest;
        assert SplitRust(s)[1..] == rest;
      } else {
        var first := [s[0]] + rest[0];
        assert SplitRust(s) == [first] + rest[1..];
        assert SplitRust(s)[1..] == rest[1..];
        assert Capitalize(first) == [ToUpperAscii(s[0])] + rest[0];
      }
    }
  }

  /** `to_camel_case` (rust/build.rs): split at each separator, drop empty pieces, upper-case
      the first character of each piece and concatenate. */
  function ToCamelCase(id: string): (r: string)
    ensures r == CapitalizeWords(Rust, id, true)
    ensures NoSeparator(Rust, r)
    ensures |r| == |id| - SeparatorCount(Rust, id)
  {
    JoinSkipsEmpty(SplitRust(id));
    SplitRustJoin(id);
    JoinCapitalized(Filter(NonEmpty, SplitRust(id)))
  }

  /** The longest suffix of `s` that does not start with a separator. */
  function DropSeparatorRun(d: Dialect, s: string): (r: string)
    ensures |r| <= |s| && r == s[|s| - |r|..]
    ensures |r| == 0 || !IsSeparator(d, r[0])
    ensures |s| > 0 && IsSeparator(d, s[0]) ==> |r| < |s|
  {
    if |s| > 0 && IsSeparator(d, s[0]) then DropSeparatorRun(d, s[1..]) else s
  }

  /** `str.split(/[_\-\s]+/)`: a maximal run of separators ends a piece, so only a leading or a
      trailing run yields an empty piece, and every interior piece is non-empty. */
  function SplitTs(s: string): (pieces: seq<string>)
    ensures |pieces| >= 1
    ensures forall k :: 0 <= k < |pieces| ==> NoSeparator(Ts, pieces[k])
    ensures forall k :: 0 < k < |pieces| - 1 ==> |pieces[k]| > 0
    ensures |s| > 0 && !IsSeparator(Ts, s[0]) ==> |pieces[0]| > 0
    ensures Concat(pieces) == RemoveSeparators(Ts, s)
    decreases |s|
  {
    if |s| == 0 then [""]
    else if IsSeparator(Ts, s[0]) then
      var rest := SplitTs(DropSeparatorRun(Ts, s));
      RemoveSeparatorRun(s);
      assert Concat([""] + rest) == Concat(rest);
      [""] + rest
    else
      var rest := SplitTs(s[1..]);
      assert Concat(rest) == rest[0] + Concat(rest[1..]);
      assert ([s[0]] + rest[0]) + Concat(rest[1..]) == [s[0]] + Concat(rest);
      [[s[0]] + rest[0]] + rest[1..]
  }

  /** A leading run of separators is invisible to the per-character reading. */
  lemma {:induction false} RemoveSeparatorRun(s: string)
    requires |s| > 0 && IsSeparator(Ts, s[0])
    ensures RemoveSeparators(Ts, DropSeparatorRun(Ts, s)) == RemoveSeparators(Ts, s)
    ensures CapitalizeWords(Ts, DropSeparatorRun(Ts, s), true) == CapitalizeWords(Ts, s, true)
    ensures CapitalizeWords(Ts, s, true) == CapitalizeWords(Ts, s, false)
    decreases |s|
  {
    if |s| > 1 && IsSeparator(Ts, s[1]) {
      RemoveSeparatorRun(s[1..]);
    }
  }

  lemma {:induction false} SplitTsJoin(s: string)
    ensures JoinCapitalized(SplitTs(s)) == CapitalizeWords(Ts, s, true)
    ensures SplitTs(s)[0] + JoinCapitalized(SplitTs(s)[1..]) == CapitalizeWords(Ts, s, false)
    decreases |s|
  {
    if |s| > 0 {
      if IsSeparator(Ts, s[0]) {
        var t := DropSeparatorRun(Ts, s);
        SplitTsJoin(t);
        SplitTsJoinSeparator(s);
      } else {
        SplitTsJoin(s[1..]);
        SplitTsJoinWord(s);
      }
    }
  }

  /** Step of `SplitTsJoin` for an input that starts with a separator run. */
  lemma SplitTsJoinSeparator(s: string)
    requires |s| > 0 && IsSeparator(Ts, s[0])
    requires JoinCapitalized(SplitTs(DropSeparatorRun(Ts, s))) == CapitalizeWords(Ts, DropSeparatorRun(Ts, s), true)
    ensures JoinCapitalized(SplitTs(s)) == CapitalizeWords(Ts, s, true)
    ensures SplitTs(s)[0] + JoinCapitalized(SplitTs(s)[1..]) == CapitalizeWords(Ts, s, false)
  {
    var t := DropSeparatorRun(Ts, s);
    RemoveSeparatorRun(s);
    var ps := SplitTs(s);
    assert ps == [""] + SplitTs(t);
    assert ps[1..] == SplitTs(t);
    assert JoinCapitalized(ps) == Capitalize("") + JoinCapitalized(ps[1..]);
  }

  /** Step of `SplitTsJoin` for an input that starts with a word character. */
  lemma SplitTsJoinWord(s: string)
    requires |s| > 0 && !IsSeparator(Ts, s[0])
    requires SplitTs(s[1..])[0] + JoinCapitalized(SplitTs(s[1..])[1..]) == CapitalizeWords(Ts, s[1..], false)
    ensures JoinCapitalized(SplitTs(s)) == CapitalizeWords(Ts, s, true)
    ensures SplitTs(s)[0] + JoinCapitalized(SplitTs(s)[1..]) == CapitalizeWords(Ts, s, false)
  {
    var rest := SplitTs(s[1..]);
    var ps := SplitTs(s);
    assert ps == [[s[0]] + rest[0]] + rest[1..];
    WordStep(ps, rest, s[0]);
    CapitalizeWordsStep(Ts, s);
  }

  /** Prepending a character to the first piece of a split prepends it to the joined result. */
  lemma WordStep(ps: seq<string>, rest: seq<string>, c: char)
    requires |rest| > 0 && ps == [[c] + rest[0]] + rest[1..]
    ensures JoinCapitalized(ps) == [ToUpperAscii(c)] + (rest[0] + JoinCapitalized(rest[1..]))
    ensures ps[0] + JoinCapitalized(ps[1..]) == [c] + (rest[0] + JoinCapitalized(rest[1..]))
  {
    var w := [c] + rest[0];
    var j := JoinCapitalized(rest[1..]);
    assert ps[0] == w && ps[1..] == rest[1..];
    assert w[0] == c && w[1..] == rest[0];
    calc {
      JoinCapitalized(ps);
      Capitalize(w) + j;
      ([ToUpperAscii(c)] + rest[0]) + j;
      { SeqAssoc([ToUpperAscii(c)], rest[0], j); }
      [ToUpperAscii(c)] + (rest[0] + j);
    }
    SeqAssoc([c], rest[0], j);
  }

  lemma SeqAssoc<T>(a: seq<T>, b: seq<T>, c: seq<T>)
    ensures (a + b) + c == a + (b + c)
  {
  }

  /** One step of the reference reading at a word character. */
  lemma CapitalizeWordsStep(d: Dialect, s: string)
    requires |s| > 0 && !IsSeparator(d, s[0])
    ensures CapitalizeWords(d, s, true) == [ToUpperAscii(s[0])] + CapitalizeWords(d, s[1..], false)
    ensures CapitalizeWords(d, s, false) == [s[0]] + CapitalizeWords(d, s[1..], false)
  {
  }

  /** `toPascalCase` (js/scripts/generate.ts): split at runs of `[_\-\s]`, upper-case the first
      character of each piece (an empty piece stays empty) and join. */
  function ToPascalCase(id: string): (r: string)
    ensures r == CapitalizeWords(Ts, id, true)
    ensures NoSeparator(Ts, r)
    ensures |r| == |id| - SeparatorCount(Ts, id)
  {
    SplitTsJoin(id);
    JoinCapitalized(SplitTs(id))
  }

  /** An id made only of separators has no word, so it normalises to the empty name. */
  lemma {:induction false} SeparatorsOnly(id: string)
    requires forall i :: 0 <= i < |id| ==> IsSeparator(Rust, id[i])
    ensures ToCamelCase(id) == ""
  {
    AllSeparatorsCounted(Rust, id);
  }

  lemma {:induction false} AllSeparatorsCounted(d: Dialect, s: string)
    requires forall i :: 0 <= i < |s| ==> IsSeparator(d, s[i])
    ensures SeparatorCount(d, s) == |s|
    decreases |s|
  {
    if |s| > 0 {
      AllSeparatorsCounted(d, s[1..]);
    }
  }

  /** Leading, trailing and doubled separators contribute nothing. */
  lemma SeparatorPadding(id: string, x: char, y: char)
    requires IsSeparator(Rust, x) && IsSeparator(Rust, y)
    ensures ToCamelCase([x] + id) == ToCamelCase(id)
    ensures ToCamelCase(id + [x]) == ToCamelCase(id)
    ensures forall k :: 0 <= k <= |id| ==> ToCamelCase(id[..k] + [x, y] + id[k..]) == ToCamelCase(id[..k] + [x] + id[k..])
  {
    assert ([x] + id)[1..] == id;
    TrailingSeparator(Rust, id, x, true);
    forall k | 0 <= k <= |id|
      ensures ToCamelCase(id[..k] + [x, y] + id[k..]) == ToCamelCase(id[..k] + [x] + id[k..])
    {
      DoubledSeparator(Rust, id[..k], id[k..], x, y, true);
    }
  }

  lemma {:induction false} TrailingSeparator(d: Dialect, s: string, x: char, atWordStart: bool)
    requires IsSeparator(d, x)
    ensures CapitalizeWords(d, s + [x], atWordStart) == CapitalizeWords(d, s, atWordStart)
    decreases |s|
  {
    if |s| > 0 {
      assert (s + [x])[1..] == s[1..] + [x];
      TrailingSeparator(d, s[1..], x, true);
      TrailingSeparator(d, s[1..], x, false);
    } else {
      assert s + [x] == [x];
    }
  }

  lemma {:induction false} DoubledSeparator(d: Dialect, a: string, b: string, x: char, y: char, atWordStart: bool)
    requires IsSeparator(d, x) && IsSeparator(d, y)
    ensures CapitalizeWords(d, a + [x, y] + b, atWordStart) == CapitalizeWords(d, a + [x] + b, atWordStart)
    decreases |a|
  {
    if |a| > 0 {
      assert (a + [x, y] + b)[1..] == a[1..] + [x, y] + b;
      assert (a + [x] + b)[1..] == a[1..] + [x] + b;
      DoubledSeparator(d, a[1..], b, x, y, true);
      DoubledSeparator(d, a[1..], b, x, y, false);
    } else {
      assert (a + [x, y] + b)[1..] == [y] + b;
      assert ([y] + b)[1..] == b;
      assert (a + [x] + b)[1..] == b;
    }
  }

  /** A word without separators read mid-word is left exactly as it is. */
  lemma {:induction false} PlainWord(d: Dialect, w: string)
    requires NoSeparator(d, w)
    ensures CapitalizeWords(d, w, false) == w
    decreases |w|
  {
    if |w| > 0 {
      PlainWord(d, w[1..]);
    }
  }

  /** The first character of a normalised name is already upper case. */
  lemma {:induction false} FirstIsUpper(d: Dialect, s: string)
    requires |CapitalizeWords(d, s, true)| > 0
    ensures ToUpperAscii(CapitalizeWords(d, s, true)[0]) == CapitalizeWords(d, s, true)[0]
    decreases |s|
  {
    if IsSeparator(d, s[0]) {
      FirstIsUpper(d, s[1..]);
    }
  }

  /** Normalising a normalised name changes nothing. */
  lemma CamelCaseIdempotent(id: string)
    ensures ToCamelCase(ToCamelCase(id)) == ToCamelCase(id)
  {
    var r := ToCamelCase(id);
    if |r| > 0 {
      FirstIsUpper(Rust, id);
      PlainWord(Rust, r[1..]);
      assert r == [r[0]] + r[1..];
    }
  }

  /** The normaliser is not injective: two words joined by different separators give one
      variant name. Nothing downstream checks for such a collision. */
  lemma CamelCaseNotInjective(a: string, b: string, x: char, y: char)
    requires |a| > 0 && NoSeparator(Rust, a) && NoSeparator(Rust, b)
    requires IsSeparator(Rust, x) && IsSeparator(Rust, y) && x != y
    ensures a + [x] + b != a + [y] + b
    ensures ToCamelCase(a + [x] + b) == ToCamelCase(a + [y] + b)
  {
    TwoWords(a, x, b);
    TwoWords(a, y, b);
    assert (a + [x] + b)[|a|] == x && (a + [y] + b)[|a|] == y;
  }

  /** `hard_rock`, `hard-rock` and `hard rock` all become `HardRock`. */
  lemma HardRock(x: char)
    requires IsSeparator(Rust, x)
    ensures ToCamelCase("hard" + [x] + "rock") == "HardRock"
  {
    var a, b := "hard", "rock";
    assert NoSeparator(Rust, a) by {
      assert a == ['h', 'a', 'r', 'd'];
    }
    assert NoSeparator(Rust, b) by {
      assert b == ['r', 'o', 'c', 'k'];
    }
    TwoWords(a, x, b);
    assert Capitalize(a) == "Hard" by {
      assert ToUpperAscii('h') == 'H';
    }
    assert Capitalize(b) == "Rock" by {
      assert ToUpperAscii('r') == 'R';
    }
  }

  /** Two words joined by one separator normalise to the two capitalised words. */
  lemma TwoWords(a: string, x: char, b: string)
    requires |a| > 0 && NoSeparator(Rust, a) && NoSeparator(Rust, b)
    requires IsSeparator(Rust, x)
    ensures ToCamelCase(a + [x] + b) == Capitalize(a) + Capitalize(b)
  {
    var s := a + [x] + b;
    var tail := [x] + b;
    assert s[0] == a[0] && s[1..] == a[1..] + tail;
    assert tail[0] == x && tail[1..] == b;
    CapitalizeWordsStep(Rust, s);
    PlainPrefix(Rust, a[1..], tail);
    PlainWordCapitalized(Rust, b);
    calc {
      CapitalizeWords(Rust, s, true);
      [ToUpperAscii(a[0])] + CapitalizeWords(Rust, a[1..] + tail, false);
      [ToUpperAscii(a[0])] + (a[1..] + CapitalizeWords(Rust, tail, false));
      [ToUpperAscii(a[0])] + (a[1..] + CapitalizeWords(Rust, b, true));
      { SeqAssoc([ToUpperAscii(a[0])], a[1..], Capitalize(b)); }
      Capitalize(a) + Capitalize(b);
    }
  }

  /** A separator-free word read at a word start is capitalised. */
  lemma PlainWordCapitalized(d: Dialect, w: string)
    requires NoSeparator(d, w)
    ensures CapitalizeWords(d, w, true) == Capitalize(w)
  {
    if |w| > 0 {
      PlainWord(d, w[1..]);
    }
  }

  /** A separator-free prefix read mid-word passes through unchanged. */
  lemma {:induction false} PlainPrefix(d: Dialect, a: string, rest: string)
    requires NoSeparator(d, a)
    ensures CapitalizeWords(d, a + rest, false) == a + CapitalizeWords(d, rest, false)
    decreases |a|
  {
    if |a| > 0 {
      assert (a + rest)[1..] == a[1..] + rest;
      PlainPrefix(d, a[1..], rest);
    } else {
      assert a + rest == rest;
    }
  }

  /** Where the only white space in an id is the plain space, both dialects agree, so the
      TypeScript `toNativeType` names the same variant as the Rust enum. */
  lemma {:induction false} PascalAgreesWithCamel(id: string)
    requires forall i :: 0 <= i < |id| ==> (IsJsWhitespace(id[i]) ==> id[i] == ' ')
    ensures ToPascalCase(id) == ToCamelCase(id)
  {
    DialectsAgree(id, true);
  }

  lemma {:induction false} DialectsAgree(s: string, atWordStart: bool)
    requires forall i :: 0 <= i < |s| ==> (IsJsWhitespace(s[i]) ==> s[i] == ' ')
    ensures CapitalizeWords(Ts, s, atWordStart) == CapitalizeWords(Rust, s, atWordStart)
    decreases |s|
  {
    if |s| > 0 {
      DialectsAgree(s[1..], true);
      DialectsAgree(s[1..], false);
    }
  }
}

=== FILE: rust_string_literal.dfy ===
/** How a display name travels through the generated Rust source: `generate_wasm_api` in
    rust/build.rs writes it between double quotes after `replace("\"", "\\\"")`, and the Rust
    compiler reads the literal back. */
module RustStringLiteral {
  import opened Wrappers

  function Count(c: char, s: string): nat
  {
    if |s| == 0 then 0 else (if s[0] == c then 1 else 0) + Count(c, s[1..])
  }

  /** The character a simple escape `\x` stands for. Only `\n \r \t \\ \0 \' \"` are modelled. */
  function SimpleEscape(c: char): Option<char>
  {
    match c
    case 'n' => Some('\n')
    case 'r' => Some('\r')
    case 't' => Some('\t')
    case '\\' => Some('\\')
    case '0' => Some('\0')
    case '\'' => Some('\'')
    case '"' => Some('"')
    case _ => None
  }

  /** The value the compiler reads from the text between the quotes of a string literal.
      A bare `"` ends the literal early and a lone carriage return is refused, so both make the
      body unreadable (`None`); a backslash escape stands for one character; every other
      character stands for itself. The lexer first turns each CR LF pair into LF; that step is
      not modelled, so a CR LF is reported as unreadable too. Escapes other than the simple
      ones (`\x41`, `\u{..}`, a backslash before a line break) are reported as unreadable. */
  function Decode(body: string): (r: Option<string>)
    ensures r.Some? ==> |r.value| <= |body|
  {
    if |body| == 0 then Some("")
    else if body[0] == '"' || body[0] == '\r' then None
    else if body[0] == '\\' then
      if |body| == 1 then None
      else
        match (SimpleEscape(body[1]), Decode(body[2..]))
        case (Some(c), Some(t)) => Some([c] + t)
        case _ => None
    else
      match Decode(body[1..])
      case Some(t) => Some([body[0]] + t)
      case None => None
  }

  /** Reading an escape followed by a readable rest. */
  lemma DecodeEscape(code: char, c: char, rest: string)
    requires SimpleEscape(code) == Some(c) && Decode(rest).Some?
    ensures Decode(['\\', code] + rest) == Some([c] + Decode(rest).value)
  {
    var e := ['\\', code] + rest;
    assert e[0] == '\\' && e[1] == code && e[2..] == rest;
  }

  /** Reading a plain character followed by a readable rest. */
  lemma DecodePlain(c: char, rest: string)
    requires c != '\\' && c != '"' && c != '\r' && Decode(rest).Some?
    ensures Decode([c] + rest) == Some([c] + Decode(rest).value)
  {
    assert ([c] + rest)[0] == c && ([c] + rest)[1..] == rest;
  }

  /** `name.replace("\"", "\\\"")`: each double quote gets a backslash in front of it and
      nothing else changes; in particular backslashes are not doubled. */
  function EscapeQuotes(s: string): (r: string)
    ensures |r| == |s| + Count('"', s)
    ensures Count('\\', r) == Count('\\', s) + Count('"', s)
    ensures Count('"', r) == Count('"', s)
    ensures |r| > 0 ==> r[0] != '"'
    ensures forall i :: 0 <= i < |r| && r[i] == '"' ==> 0 < i && r[i - 1] == '\\'
  {
    if |s| == 0 then ""
    else
      var rest := EscapeQuotes(s[1..]);
      if s[0] == '"' then ['\\', '"'] + rest
      else [s[0]] + rest
  }

  /** For a name with no backslash and no carriage return, escaping the quotes is enough:
      the compiler reads back exactly the name. */
  lemma {:induction false} EscapeQuotesRoundTrip(s: string)
    requires forall i :: 0 <= i < |s| ==> s[i] != '\\' && s[i] != '\r'
    ensures Decode(EscapeQuotes(s)) == Some(s)
    decreases |s|
  {
    if |s| > 0 {
      EscapeQuotesRoundTrip(s[1..]);
      var rest := EscapeQuotes(s[1..]);
      if s[0] == '"' {
        var e := ['\\', '"'] + rest;
        DecodeEscape('"', '"', rest);
        assert EscapeQuotes(s) == e;
        assert [s[0]] + s[1..] == s;
      } else {
        DecodePlain(s[0], rest);
        assert [s[0]] + s[1..] == s;
      }
    }
  }

  /** The escaping as written misreads a name containing a backslash: the two characters
      `\` `n` come back as a single line feed. */
  lemma EscapeQuotesMisreadsBackslash(name: string)
    requires name == ['\\', 'n']
    ensures Decode(EscapeQuotes(name)) == Some(['\n'])
    ensures Decode(EscapeQuotes(name)) != Some(name)
  {
    assert EscapeQuotes(name[1..]) == ['n'];
    assert EscapeQuotes(name) == name;
    assert Decode([]) == Some([]);
    DecodeEscape('n', '\n', []);
    assert name == ['\\', 'n'] + [];
    assert ['\n'] + [] == ['\n'];
  }

  /** The escaping the generator evidently intends: backslash, double quote and carriage return
      are written as escapes, so every name reads back unchanged. */
  function EscapeLiteral(s: string): (r: string)
    ensures Decode(r) == Some(s)
    ensures |r| == |s| + Count('\\', s) + Count('"', s) + Count('\r', s)
  {
    if |s| == 0 then ""
    else
      var rest := EscapeLiteral(s[1..]);
      if s[0] == '\\' || s[0] == '"' || s[0] == '\r' then
        var code := if s[0] == '\r' then 'r' else s[0];
        var e := ['\\', code] + rest;
        DecodeEscape(code, s[0], rest);
        assert [s[0]] + s[1..] == s;
        e
      else
        DecodePlain(s[0], rest);
        assert [s[0]] + s[1..] == s;
        [s[0]] + rest
  }
}

=== FILE: seqs.dfy ===
/** Order-preserving sequence combinators shared by the generators and the query surface:
    Rust's `iter().filter(..).collect()`, `iter().map(..).collect()` and string concatenation. */
module Seqs {

  /** The indices of the elements of `s` that satisfy `p`, in increasing order.
      This index-level reading is the reference against which `Filter` is specified. */
  function Positions<T>(p: T -> bool, s: seq<T>): (idx: seq<nat>)
    ensures forall k :: 0 <= k < |idx| ==> idx[k] < |s|
    ensures forall j, k :: 0 <= j < k < |idx| ==> idx[j] < idx[k]
    ensures forall i :: 0 <= i < |s| ==> (p(s[i]) <==> i in idx)
  {
    if |s| == 0 then []
    else
      var rest := Positions(p, s[..|s| - 1]);
      if p(s[|s| - 1]) then rest + [|s| - 1] else rest
  }

  /** The elements of `s` satisfying `p`, kept in their original order. */
  function Filter<T(!new)>(p: T -> bool, s: seq<T>): (r: seq<T>)
    ensures |r| == |Positions(p, s)|
    ensures forall k :: 0 <= k < |r| ==> r[k] == s[Positions(p, s)[k]]
  {
    if |s| == 0 then []
    else
      var init := s[..|s| - 1];
      assert forall i :: 0 <= i < |init| ==> init[i] == s[i];
      Filter(p, init) + (if p(s[|s| - 1]) then [s[|s| - 1]] else [])
  }

  /** Filtering a sequence extended by one element. */
  lemma FilterSnoc<T(!new)>(p: T -> bool, s: seq<T>, x: T)
    ensures Filter(p, s + [x]) == Filter(p, s) + (if p(x) then [x] else [])
  {
    assert (s + [x])[..|s + [x]| - 1] == s;
  }

  /** Filtering distributes over concatenation. */
  lemma {:induction false} FilterAppend<T(!new)>(p: T -> bool, a: seq<T>, b: seq<T>)
    ensures Filter(p, a + b) == Filter(p, a) + Filter(p, b)
    decreases |b|
  {
    if |b| == 0 {
      assert a + b == a;
    } else {
      var b' := b[..|b| - 1];
      assert (a + b)[..|a + b| - 1] == a + b';
      FilterAppend(p, a, b');
    }
  }

  /** Filtering three pieces of which the first contributes nothing. */
  lemma FilterAfterSkip<T(!new)>(p: T -> bool, a: seq<T>, b: seq<T>, c: seq<T>, kept: seq<T>)
    requires Filter(p, a) == [] && Filter(p, b) == kept
    ensures Filter(p, a + b + c) == kept + Filter(p, c)
  {
    calc {
      Filter(p, a + b + c);
      { FilterAppend(p, a + b, c); }
      Filter(p, a + b) + Filter(p, c);
      { FilterAppend(p, a, b); }
      Filter(p, a) + Filter(p, b) + Filter(p, c);
      { assert [] + kept == kept; }
      kept + Filter(p, c);
    }
  }

  /** Filtering three pieces of which the second contributes nothing. */
  lemma FilterBeforeSkip<T(!new)>(p: T -> bool, a: seq<T>, b: seq<T>, c: seq<T>, kept: seq<T>)
    requires Filter(p, a) == kept && Filter(p, b) == []
    ensures Filter(p, a + b + c) == kept + Filter(p, c)
  {
    calc {
      Filter(p, a + b + c);
      { FilterAppend(p, a + b, c); }
      Filter(p, a + b) + Filter(p, c);
      { FilterAppend(p, a, b); }
      Filter(p, a) + Filter(p, b) + Filter(p, c);
      { assert kept + [] == kept; }
      kept + Filter(p, c);
    }
  }

  /** Filtering a sequence none of whose elements qualify gives the empty sequence. */
  lemma FilterNone<T(!new)>(p: T -> bool, s: seq<T>)
    requires forall i :: 0 <= i < |s| ==> !p(s[i])
    ensures Filter(p, s) == []
  {
  }

  /** Filtering a sequence all of whose elements qualify is the identity. */
  lemma {:induction false} FilterAll<T(!new)>(p: T -> bool, s: seq<T>)
    requires forall i :: 0 <= i < |s| ==> p(s[i])
    ensures Filter(p, s) == s
    decreases |s|
  {
    if |s| > 0 {
      var init := s[..|s| - 1];
      var last := s[|s| - 1];
      assert s == init + [last];
      FilterAll(p, init);
      FilterSnoc(p, init, last);
    }
  }

  /** Whether some element of `s` satisfies `p`, scanning from the front. */
  function Any<T>(p: T -> bool, s: seq<T>): (b: bool)
    ensures b <==> exists i :: 0 <= i < |s| && p(s[i])
  {
    if |s| == 0 then false
    else if p(s[0]) then true
    else
      assert forall i :: 1 <= i < |s| ==> s[i] == s[1..][i - 1];
      Any(p, s[1..])
  }

  /** Element-wise image of a sequence. */
  function Map<A, B>(f: A -> B, s: seq<A>): (r: seq<B>)
    ensures |r| == |s|
    ensures forall i :: 0 <= i < |s| ==> r[i] == f(s[i])
  {
    seq(|s|, i requires 0 <= i < |s| => f(s[i]))
  }

  lemma MapCons<A, B>(f: A -> B, s: seq<A>)
    requires |s| > 0
    ensures Map(f, s) == [f(s[0])] + Map(f, s[1..])
  {
  }

  lemma MapAppend<A, B>(f: A -> B, a: seq<A>, b: seq<A>)
    ensures Map(f, a + b) == Map(f, a) + Map(f, b)
  {
  }

  /** Filtering commutes with a map whose predicate is read through the map. */
  lemma {:induction false} FilterMap<A(!new), B(!new)>(p: B -> bool, q: A -> bool, f: A -> B, s: seq<A>)
    requires forall i :: 0 <= i < |s| ==> p(f(s[i])) == q(s[i])
    ensures Filter(p, Map(f, s)) == Map(f, Filter(q, s))
    decreases |s|
  {
    if |s| > 0 {
      var init, last := s[..|s| - 1], s[|s| - 1];
      var ms := Map(f, s);
      assert ms[..|ms| - 1] == Map(f, init);
      assert ms[|ms| - 1] == f(last);
      FilterMap(p, q, f, init);
      var tail := if q(last) then [last] else [];
      calc {
        Filter(p, ms);
        Filter(p, Map(f, init)) + (if p(f(last)) then [f(last)] else []);
        Map(f, Filter(q, init)) + Map(f, tail);
        { MapAppend(f, Filter(q, init), tail); }
        Map(f, Filter(q, init) + tail);
      }
    }
  }

  /** Flattening of a sequence of sequences, left to right (Rust's `collect::<String>()`). */
  function Concat<T>(xs: seq<seq<T>>): seq<T>
  {
    if |xs| == 0 then [] else xs[0] + Concat(xs[1..])
  }
}

=== FILE: taxonomy.dfy ===
/** The parsed taxonomy (`Genre`, `SubGenre` in rust/build.rs) and the one traversal order that
    every generator follows: a genre, then its subgenres in declared order, then the next genre.
    The position of a node in that order is its ordinal in the on-chain `GenreId` enum. */
module Taxonomy {

  datatype SubGenre = SubGenre(id: string, name: string)

  datatype Genre = Genre(id: string, name: string, subgenres: seq<SubGenre>)

  /** Number of nodes: one per genre plus one per subgenre. */
  function Size(gs: seq<Genre>): (n: nat)
    ensures n >= |gs|
    ensures forall k :: 0 <= k < |gs| ==> 1 + |gs[k].subgenres| <= n
  {
    if |gs| == 0 then 0
    else
      assert forall k :: 1 <= k < |gs| ==> gs[k] == gs[1..][k - 1];
      1 + |gs[0].subgenres| + Size(gs[1..])
  }

  /** Ordinal of the `k`-th genre: the number of nodes of all genres before it. */
  function Offset(gs: seq<Genre>, k: nat): (o: nat)
    requires k <= |gs|
    ensures k < |gs| ==> o + 1 + |gs[k].subgenres| <= Size(gs)
    ensures k == |gs| ==> o == Size(gs)
  {
    if k == 0 then 0 else 1 + |gs[0].subgenres| + Offset(gs[1..], k - 1)
  }

  /** A node of the taxonomy, addressed by position: genre `genre`, or its subgenre `sub`. */
  datatype Slot = GenreSlot(genre: nat) | SubgenreSlot(genre: nat, sub: nat)

  predicate ValidSlot(gs: seq<Genre>, s: Slot)
  {
    s.genre < |gs| && (s.SubgenreSlot? ==> s.sub < |gs[s.genre].subgenres|)
  }

  /** The ordinal assigned to a node by the traversal. */
  function Ordinal(gs: seq<Genre>, s: Slot): (n: nat)
    requires ValidSlot(gs, s)
    ensures n < Size(gs)
  {
    match s
    case GenreSlot(k) => Offset(gs, k)
    case SubgenreSlot(k, j) => Offset(gs, k) + 1 + j
  }

  /** The node that receives ordinal `n`: the inverse of `Ordinal`. */
  function Locate(gs: seq<Genre>, n: nat): (s: Slot)
    requires n < Size(gs)
    ensures ValidSlot(gs, s) && Ordinal(gs, s) == n
  {
    var m := |gs[0].subgenres|;
    if n == 0 then GenreSlot(0)
    else if n <= m then SubgenreSlot(0, n - 1)
    else
      match Locate(gs[1..], n - 1 - m)
      case GenreSlot(k) => GenreSlot(k + 1)
      case SubgenreSlot(k, j) => SubgenreSlot(k + 1, j)
  }

  /** The same node seen from the taxonomy without its first genre. */
  function Prev(s: Slot): (p: Slot)
    requires s.genre > 0
    ensures p.genre == s.genre - 1 && p.SubgenreSlot? == s.SubgenreSlot?
    ensures s.SubgenreSlot? ==> p.sub == s.sub
  {
    match s
    case GenreSlot(k) => GenreSlot(k - 1)
    case SubgenreSlot(k, j) => SubgenreSlot(k - 1, j)
  }

  /** A node past the first genre sits after that genre's nodes. */
  lemma OrdinalShift(gs: seq<Genre>, s: Slot)
    requires ValidSlot(gs, s) && s.genre > 0
    ensures ValidSlot(gs[1..], Prev(s))
    ensures Ordinal(gs, s) == 1 + |gs[0].subgenres| + Ordinal(gs[1..], Prev(s))
  {
    assert gs[1..][s.genre - 1] == gs[s.genre];
  }

  /** Every node has exactly one ordinal: locating a node's ordinal gives the node back,
      so no two nodes share an ordinal. */
  lemma {:induction false} LocateOrdinal(gs: seq<Genre>, s: Slot)
    requires ValidSlot(gs, s)
    ensures Locate(gs, Ordinal(gs, s)) == s
    decreases s.genre
  {
    if s.genre > 0 {
      OrdinalShift(gs, s);
      LocateOrdinal(gs[1..], Prev(s));
    }
  }

  /** Ordinals are an injection of nodes into positions. */
  lemma OrdinalInjective(gs: seq<Genre>, a: Slot, b: Slot)
    requires ValidSlot(gs, a) && ValidSlot(gs, b)
    requires Ordinal(gs, a) == Ordinal(gs, b)
    ensures a == b
  {
    LocateOrdinal(gs, a);
    LocateOrdinal(gs, b);
  }

  /** The traversal shared by the generators, parameterised by what is emitted per genre and
      per subgenre (the subgenre's emitter also sees its owning genre). */
  function Walk<T>(gs: seq<Genre>, onGenre: Genre -> T, onSub: (Genre, SubGenre) -> T): (r: seq<T>)
    ensures |r| == Size(gs)
  {
    if |gs| == 0 then []
    else [onGenre(gs[0])] + SubWalk(gs[0], onSub) + Walk(gs[1..], onGenre, onSub)
  }

  /** The records emitted for one genre's subgenres, in declared order. */
  function SubWalk<T>(g: Genre, onSub: (Genre, SubGenre) -> T): (r: seq<T>)
    ensures |r| == |g.subgenres|
    ensures forall j :: 0 <= j < |r| ==> r[j] == onSub(g, g.subgenres[j])
  {
    seq(|g.subgenres|, j requires 0 <= j < |g.subgenres| => onSub(g, g.subgenres[j]))
  }

  /** What the traversal emits for a given node. */
  function Emitted<T>(gs: seq<Genre>, s: Slot, onGenre: Genre -> T, onSub: (Genre, SubGenre) -> T): T
    requires ValidSlot(gs, s)
  {
    match s
    case GenreSlot(k) => onGenre(gs[k])
    case SubgenreSlot(k, j) => onSub(gs[k], gs[k].subgenres[j])
  }

  /** The traversal places each node's record at that node's ordinal. */
  lemma {:induction false} WalkAt<T>(gs: seq<Genre>, s: Slot, onGenre: Genre -> T, onSub: (Genre, SubGenre) -> T)
    requires ValidSlot(gs, s)
    ensures Walk(gs, onGenre, onSub)[Ordinal(gs, s)] == Emitted(gs, s, onGenre, onSub)
    decreases s.genre
  {
    var w := Walk(gs, onGenre, onSub);
    var head := [onGenre(gs[0])] + SubWalk(gs[0], onSub);
    var rest := Walk(gs[1..], onGenre, onSub);
    assert w == head + rest;
    if s.genre > 0 {
      OrdinalShift(gs, s);
      WalkAt(gs[1..], Prev(s), onGenre, onSub);
      assert w[Ordinal(gs, s)] == rest[Ordinal(gs[1..], Prev(s))];
      assert gs[1..][s.genre - 1] == gs[s.genre];
    } else {
      assert w[Ordinal(gs, s)] == head[Ordinal(gs, s)];
    }
  }

  /** The flattened ids `[g.id, g.subgenres[0].id, ...]` for each genre in order. */
  function FlatIds(gs: seq<Genre>): seq<string>
  {
    Walk(gs, IdOfGenre, IdOfSubgenre)
  }

  function IdOfGenre(g: Genre): string
  {
    g.id
  }

  function IdOfSubgenre(g: Genre, s: SubGenre): string
  {
    s.id
  }
}

=== FILE: text_lines.dfy ===
/** Text as lines: joining with line feeds (`join("\n")` in Rust) and cutting a text back into
    its physical lines, which is how a `//` comment is delimited. */
module TextLines {

  /** Text holding no line feed. */
  predicate OneLine(s: string)
  {
    forall i :: 0 <= i < |s| ==> s[i] != '\n'
  }

  lemma OneLineAppend(a: string, b: string)
    requires OneLine(a) && OneLine(b)
    ensures OneLine(a + b)
  {
    assert forall i :: |a| <= i < |a + b| ==> (a + b)[i] == b[i - |a|];
  }

  /** Every text of `ss` is one line long. */
  predicate AllOneLine(ss: seq<string>)
  {
    forall n :: 0 <= n < |ss| ==> OneLine(ss[n])
  }

  lemma OneLineMember(ss: seq<string>, v: string)
    requires AllOneLine(ss) && v in ss
    ensures OneLine(v)
  {
  }

  /** `ls` joined with a line feed between neighbours. */
  function JoinLines(ls: seq<string>): string
  {
    if |ls| == 0 then ""
    else if |ls| == 1 then ls[0]
    else ls[0] + "\n" + JoinLines(ls[1..])
  }

  /** The text up to its first line feed, or all of it when there is none. */
  function FirstLine(s: string): (r: string)
    ensures r <= s && OneLine(r)
    ensures |r| < |s| ==> s[|r|] == '\n'
  {
    if |s| == 0 || s[0] == '\n' then ""
    else [s[0]] + FirstLine(s[1..])
  }

  /** The first line of a one-line text followed by a line feed is that text. */
  lemma FirstLineOf(x: string, y: string)
    requires OneLine(x)
    ensures FirstLine(x + "\n" + y) == x
  {
    var s := x + "\n" + y;
    var r := FirstLine(s);
    assert s[|x|] == '\n';
    assert forall i :: 0 <= i < |x| ==> s[i] == x[i];
    assert forall i :: 0 <= i < |r| ==> s[i] == r[i];
    assert |r| == |x|;
    assert r == s[..|r|] && x == s[..|x|];
  }

  /** The physical lines of a text: it is cut at every line feed. */
  function Lines(s: string): (ls: seq<string>)
    ensures |ls| > 0
    ensures forall i :: 0 <= i < |ls| ==> OneLine(ls[i])
    ensures JoinLines(ls) == s
    decreases |s|
  {
    var f := FirstLine(s);
    if |f| == |s| then
      assert f == s;
      [s]
    else
      var rest := Lines(s[|f| + 1..]);
      assert s == f + "\n" + s[|f| + 1..] by {
        assert s[..|f|] == f;
      }
      assert ([f] + rest)[1..] == rest;
      [f] + rest
  }

  /** Joining one-line texts and cutting the result gives them back. */
  lemma {:induction false} LinesOfJoin(ls: seq<string>)
    requires |ls| > 0
    requires AllOneLine(ls)
    ensures Lines(JoinLines(ls)) == ls
    decreases |ls|
  {
    if |ls| > 1 {
      var rest := JoinLines(ls[1..]);
      var s := ls[0] + "\n" + rest;
      FirstLineOf(ls[0], rest);
      assert s[|ls[0]| + 1..] == rest;
      LinesOfJoin(ls[1..]);
      assert Lines(s) == [ls[0]] + Lines(rest);
    } else {
      assert FirstLine(ls[0]) == ls[0];
    }
  }
}

=== FILE: ts_generator.dfy ===
/** The TypeScript side, js/scripts/generate.ts: the in-memory `allGenresUnified` list, the
    module it writes (with `parentId` emitted only when truthy) and the four query functions
    that module exports, together with their agreement with the Rust table. */
module TsGenerator {
  import opened Wrappers
  import opened Seqs
  import opened Taxonomy
  import opened Normalise
  import opened IndexEmitter
  import opened GenreApi
  import opened Hierarchy

  /** `GenreType = "genre" | "subgenre"`. */
  datatype TsType = TsGenre | TsSubgenre

  /** `UnifiedGenreEntry`; `native` is what `toNativeType()` returns. */
  datatype UnifiedEntry = UnifiedEntry(id: string, name: string, kind: TsType, parentId: Option<string>, native: string)

  function UnifiedGenre(g: Genre): UnifiedEntry
  {
    UnifiedEntry(g.id, g.name, TsGenre, None, ToPascalCase(g.id))
  }

  function UnifiedSubgenre(g: Genre, s: SubGenre): UnifiedEntry
  {
    UnifiedEntry(s.id, s.name, TsSubgenre, Some(g.id), ToPascalCase(s.id))
  }

  /** The in-memory list built by the nested loop: the same traversal as the Rust table. */
  function AllUnified(gs: seq<Genre>): (u: seq<UnifiedEntry>)
    ensures |u| == Size(gs)
    ensures forall n :: 0 <= n < |u| ==>
              && u[n].id == FlatIds(gs)[n]
              && u[n].native == ToPascalCase(u[n].id)
              && (u[n].kind == TsGenre <==> u[n].parentId.None?)
  {
    UnifiedWellFormed(gs);
    Walk(gs, UnifiedGenre, UnifiedSubgenre)
  }

  lemma UnifiedWellFormed(gs: seq<Genre>)
    ensures forall n :: 0 <= n < Size(gs) ==>
              && Walk(gs, UnifiedGenre, UnifiedSubgenre)[n].id == FlatIds(gs)[n]
              && Walk(gs, UnifiedGenre, UnifiedSubgenre)[n].native == ToPascalCase(Walk(gs, UnifiedGenre, UnifiedSubgenre)[n].id)
              && (Walk(gs, UnifiedGenre, UnifiedSubgenre)[n].kind == TsGenre <==> Walk(gs, UnifiedGenre, UnifiedSubgenre)[n].parentId.None?)
  {
    forall n | 0 <= n < Size(gs)
      ensures Walk(gs, UnifiedGenre, UnifiedSubgenre)[n].id == FlatIds(gs)[n]
      ensures Walk(gs, UnifiedGenre, UnifiedSubgenre)[n].native == ToPascalCase(Walk(gs, UnifiedGenre, UnifiedSubgenre)[n].id)
      ensures Walk(gs, UnifiedGenre, UnifiedSubgenre)[n].kind == TsGenre <==> Walk(gs, UnifiedGenre, UnifiedSubgenre)[n].parentId.None?
    {
      var s := Locate(gs, n);
      WalkAt(gs, s, UnifiedGenre, UnifiedSubgenre);
      WalkAt(gs, s, IdOfGenre, IdOfSubgenre);
    }
  }

  /** The object literal written for one entry. JavaScript truthiness decides whether the
      `parentId` line is written: an absent parent and an empty-string parent both omit it. */
  function EmitEntry(e: UnifiedEntry): (w: UnifiedEntry)
    ensures w.id == e.id && w.name == e.name && w.kind == e.kind
    ensures w.native == ToPascalCase(e.id)
    ensures w.parentId.Some? <==> e.parentId.Some? && e.parentId.value != ""
    ensures w.parentId.Some? ==> w.parentId == e.parentId
  {
    UnifiedEntry(e.id, e.name, e.kind, if e.parentId.Some? && e.parentId.value != "" then e.parentId else None, ToPascalCase(e.id))
  }

  /** `allGenresUnified` as the generated module declares it: the in-memory entries, each
      possibly without its `parentId`, and no genre-type entry with one. */
  function EmittedModule(gs: seq<Genre>): (m: seq<UnifiedEntry>)
    ensures |m| == Size(gs)
    ensures forall n :: 0 <= n < |m| ==> m[n] == AllUnified(gs)[n].(parentId := m[n].parentId)
    ensures forall n :: 0 <= n < |m| ==> m[n].kind == TsGenre ==> m[n].parentId.None?
  {
    Map(EmitEntry, AllUnified(gs))
  }

  /** `getGenreName`: `find` on the id, then the entry's name. */
  function TsGetGenreName(m: seq<UnifiedEntry>, id: string): (r: Option<string>)
    ensures r.Some? <==> exists i :: 0 <= i < |m| && m[i].id == id
    ensures r.Some? ==> exists i :: 0 <= i < |m| && m[i].id == id && r.value == m[i].name && forall j :: 0 <= j < i ==> m[j].id != id
  {
    if |m| == 0 then None
    else if m[0].id == id then Some(m[0].name)
    else
      var r := TsGetGenreName(m[1..], id);
      assert r.Some? ==> exists i :: 1 <= i < |m| && m[i].id == id && r.value == m[i].name && forall j :: 0 <= j < i ==> m[j].id != id by {
        if r.Some? {
          var i :| 0 <= i < |m[1..]| && m[1..][i].id == id && r.value == m[1..][i].name && forall j :: 0 <= j < i ==> m[1..][j].id != id;
          assert m[i + 1] == m[1..][i];
          assert forall j :: 1 <= j < i + 1 ==> m[j] == m[1..][j - 1];
        }
      }
      r
  }

  /** The predicate `g => g.id === id` of `isValidGenreId`. */
  function TsHasId(id: string): UnifiedEntry -> bool
  {
    (e: UnifiedEntry) => e.id == id
  }

  /** `isValidGenreId`: `some` on the id. */
  function TsIsValidGenreId(m: seq<UnifiedEntry>, id: string): (b: bool)
    ensures b <==> exists i :: 0 <= i < |m| && m[i].id == id
  {
    assert forall i :: 0 <= i < |m| ==> TsHasId(id)(m[i]) == (m[i].id == id);
    Any(TsHasId(id), m)
  }

  /** The filter of `getSubgenresOf`: `g.parentId === parentId`, where an omitted `parentId`
      is `undefined` and equals no string. */
  function TsChildOf(parent: string): UnifiedEntry -> bool
  {
    (e: UnifiedEntry) => e.parentId == Some(parent)
  }

  predicate TsIsGenre(e: UnifiedEntry)
  {
    e.kind == TsGenre
  }

  /** `getSubgenresOf`: the entries whose parent is `parent`, in list order. */
  function TsGetSubgenresOf(m: seq<UnifiedEntry>, parent: string): (r: seq<UnifiedEntry>)
    ensures |r| == |Positions(TsChildOf(parent), m)|
    ensures forall k :: 0 <= k < |r| ==> r[k] == m[Positions(TsChildOf(parent), m)[k]] && r[k].parentId == Some(parent)
  {
    Filter(TsChildOf(parent), m)
  }

  /** `getGenres`: the entries of type `"genre"`, in list order. */
  function TsGetGenres(m: seq<UnifiedEntry>): (r: seq<UnifiedEntry>)
    ensures |r| == |Positions(TsIsGenre, m)|
    ensures forall k :: 0 <= k < |r| ==> r[k] == m[Positions(TsIsGenre, m)[k]] && r[k].kind == TsGenre
  {
    Filter(TsIsGenre, m)
  }

  /** The entry at each node's ordinal: a genre gets type `"genre"` and no parent, a subgenre
      gets type `"subgenre"` and its owning genre's id as parent; the TypeScript walk visits the
      nodes in the same order as the Rust one. */
  lemma UnifiedAtOrdinal(gs: seq<Genre>, s: Slot)
    requires ValidSlot(gs, s)
    ensures AllUnified(gs)[Ordinal(gs, s)].id == FlatIds(gs)[Ordinal(gs, s)]
    ensures AllUnified(gs)[Ordinal(gs, s)] ==
              match s
              case GenreSlot(k) => UnifiedEntry(gs[k].id, gs[k].name, TsGenre, None, ToPascalCase(gs[k].id))
              case SubgenreSlot(k, j) =>
                UnifiedEntry(gs[k].subgenres[j].id, gs[k].subgenres[j].name, TsSubgenre, Some(gs[k].id), ToPascalCase(gs[k].subgenres[j].id))
  {
    WalkAt(gs, s, UnifiedGenre, UnifiedSubgenre);
    WalkAt(gs, s, IdOfGenre, IdOfSubgenre);
  }

  /** In the written module only subgenre entries carry a `parentId`. */
  lemma EmittedGenresHaveNoParent(gs: seq<Genre>)
    ensures forall n :: 0 <= n < |EmittedModule(gs)| ==>
              (EmittedModule(gs)[n].kind == TsGenre ==> EmittedModule(gs)[n].parentId.None?)
  {
    forall n | 0 <= n < |EmittedModule(gs)|
      ensures EmittedModule(gs)[n].kind == TsGenre ==> EmittedModule(gs)[n].parentId.None?
    {
      WalkAt(gs, Locate(gs, n), UnifiedGenre, UnifiedSubgenre);
    }
  }

  /** `getSubgenresOf` on the written module never returns an entry of type `"genre"`. */
  lemma TsSubgenresAreNotGenres(gs: seq<Genre>, parent: string)
    ensures forall k :: 0 <= k < |TsGetSubgenresOf(EmittedModule(gs), parent)| ==>
              TsGetSubgenresOf(EmittedModule(gs), parent)[k].kind == TsSubgenre
  {
    EmittedGenresHaveNoParent(gs);
  }

  /** `getGenreName` is non-null exactly for the ids `isValidGenreId` accepts. */
  lemma TsNameIffValid(m: seq<UnifiedEntry>, id: string)
    ensures TsGetGenreName(m, id).Some? <==> TsIsValidGenreId(m, id)
  {
  }

  /** A subgenre whose genre has the empty id loses its `parentId` in the written module, so
      the written module and the in-memory list disagree exactly there. */
  lemma EmptyParentIdDropped(gs: seq<Genre>, k: nat, j: nat)
    requires ValidSlot(gs, SubgenreSlot(k, j))
    ensures AllUnified(gs)[Ordinal(gs, SubgenreSlot(k, j))].parentId == Some(gs[k].id)
    ensures EmittedModule(gs)[Ordinal(gs, SubgenreSlot(k, j))].parentId.Some? <==> gs[k].id != ""
  {
    WalkAt(gs, SubgenreSlot(k, j), UnifiedGenre, UnifiedSubgenre);
  }

  /** Every top-level genre id is non-empty. */
  predicate GenreIdsNonEmpty(gs: seq<Genre>)
  {
    forall k :: 0 <= k < |gs| ==> gs[k].id != ""
  }

  /** With non-empty genre ids the written module holds exactly the in-memory list. */
  lemma EmittedIsInMemory(gs: seq<Genre>)
    requires GenreIdsNonEmpty(gs)
    ensures EmittedModule(gs) == AllUnified(gs)
  {
    forall n | 0 <= n < Size(gs)
      ensures EmittedModule(gs)[n] == AllUnified(gs)[n]
    {
      var s := Locate(gs, n);
      WalkAt(gs, s, UnifiedGenre, UnifiedSubgenre);
    }
  }

  /** What both languages' entries carry in common: id, name, kind and parent. */
  datatype Row = Row(id: string, name: string, isGenre: bool, parentId: Option<string>)

  function RustRow(e: GenreEntry): Row
  {
    Row(e.id, e.name, e.genreType == GenreKind, e.parentId)
  }

  function TsRow(e: UnifiedEntry): Row
  {
    Row(e.id, e.name, e.kind == TsGenre, e.parentId)
  }

  /** The written TypeScript list and the Rust table agree row by row: same ids, names, kinds
      and parents, in the same order. */
  lemma RowsAgree(gs: seq<Genre>)
    requires GenreIdsNonEmpty(gs)
    ensures Map(TsRow, EmittedModule(gs)) == Map(RustRow, GenerateEntries(gs))
  {
    EmittedIsInMemory(gs);
    forall n | 0 <= n < Size(gs)
      ensures TsRow(AllUnified(gs)[n]) == RustRow(GenerateEntries(gs)[n])
    {
      var s := Locate(gs, n);
      WalkAt(gs, s, UnifiedGenre, UnifiedSubgenre);
      WalkAt(gs, s, GenreEntryOf, SubgenreEntryOf);
    }
  }

  /** `toNativeType()` names the same enum member as the Rust table's `genre_id` whenever the id
      uses no JavaScript whitespace other than the plain space. */
  lemma NativeTypesAgree(gs: seq<Genre>, n: nat)
    requires n < Size(gs)
    requires forall i :: 0 <= i < |FlatIds(gs)[n]| ==> (IsJsWhitespace(FlatIds(gs)[n][i]) ==> FlatIds(gs)[n][i] == ' ')
    ensures EmittedModule(gs)[n].native == GenerateEntries(gs)[n].genreId
  {
    var s := Locate(gs, n);
    WalkAt(gs, s, UnifiedGenre, UnifiedSubgenre);
    WalkAt(gs, s, GenreEntryOf, SubgenreEntryOf);
    WalkAt(gs, s, IdOfGenre, IdOfSubgenre);
    PascalAgreesWithCamel(FlatIds(gs)[n]);
  }

  /** A tab is a separator for `toPascalCase` but not for `to_camel_case`, so the two languages
      name different enum members for such an id. */
  lemma TabSplitsOnlyInTs(a: char, b: char)
    requires 'a' <= a <= 'z' && 'a' <= b <= 'z'
    ensures |ToPascalCase([a, '\t', b])| == 2
    ensures |ToCamelCase([a, '\t', b])| == 3
  {
    var id := [a, '\t', b];
    assert id[1..] == ['\t', b] && id[1..][1..] == [b] && id[1..][1..][1..] == [];
    assert SeparatorCount(Ts, [b]) == 0;
    assert SeparatorCount(Ts, ['\t', b]) == 1;
    assert SeparatorCount(Ts, id) == 1;
    assert SeparatorCount(Rust, [b]) == 0;
    assert SeparatorCount(Rust, ['\t', b]) == 0;
    assert SeparatorCount(Rust, id) == 0;
  }

  lemma {:induction false} NameLookupsAgree(m: seq<UnifiedEntry>, t: seq<GenreEntry>, id: string)
    requires Map(TsRow, m) == Map(RustRow, t)
    ensures TsGetGenreName(m, id) == GetGenreName(t, id)
    ensures TsIsValidGenreId(m, id) == IsValidGenreId(t, id)
  {
    assert |m| == |t| by { assert |Map(TsRow, m)| == |Map(RustRow, t)|; }
    assert forall i :: 0 <= i < |m| ==> TsRow(m[i]) == RustRow(t[i]) by {
      forall i | 0 <= i < |m| ensures TsRow(m[i]) == RustRow(t[i]) {
        assert Map(TsRow, m)[i] == Map(RustRow, t)[i];
      }
    }
    if |m| > 0 && m[0].id != id {
      assert Map(TsRow, m[1..]) == Map(RustRow, t[1..]);
      NameLookupsAgree(m[1..], t[1..], id);
    }
  }

  /** The four TypeScript queries on the written module answer as the Rust queries do on the
      Rust table: the same name, the same validity, and the same rows, in the same order, for
      the subgenre and genre lists. */
  lemma QueriesAgree(gs: seq<Genre>, id: string, parent: string)
    requires GenreIdsNonEmpty(gs)
    ensures TsGetGenreName(EmittedModule(gs), id) == GetGenreName(GenerateEntries(gs), id)
    ensures TsIsValidGenreId(EmittedModule(gs), id) == IsValidGenreId(GenerateEntries(gs), id)
    ensures Map(TsRow, TsGetSubgenresOf(EmittedModule(gs), parent)) == Map(RustRow, GetSubgenresOf(GenerateEntries(gs), parent))
    ensures Map(TsRow, TsGetGenres(EmittedModule(gs))) == Map(RustRow, GetGenres(GenerateEntries(gs)))
  {
    var m, t := EmittedModule(gs), GenerateEntries(gs);
    RowsAgree(gs);
    NameLookupsAgree(m, t, id);
    FilterMap(RowChildOf(parent), TsChildOf(parent), TsRow, m);
    FilterMap(RowChildOf(parent), ChildOf(parent), RustRow, t);
    FilterMap(RowIsGenre, TsIsGenre, TsRow, m);
    FilterMap(RowIsGenre, IsGenre, RustRow, t);
  }

  function RowChildOf(parent: string): Row -> bool
  {
    (r: Row) => r.parentId == Some(parent)
  }

  predicate RowIsGenre(r: Row)
  {
    r.isGenre
  }
}

=== FILE: wrappers.dfy ===
/** Optional values: the model of Rust's `Option`, TypeScript's `T | undefined` and `T | null`. */
module Wrappers {

  datatype Option<+T> = None | Some(value: T)
}
